=== FILE: README.md ===
# IoT Guardian — a Dafny model of the application core

IoT Guardian is a Next.js web application for monitoring home sensors. Devices post
readings to an in-memory sensor store. Signed-in users watch their devices on a
dashboard grid, buy hardware through a cart and manage a subscription plan.
Administrators manage users and known issues and broadcast notifications. Accounts,
sessions and notifications live in the browser's `localStorage`.

This project models the logic behind those screens, one Dafny module per source file:

| module | source file | form |
|---|---|---|
| `Common` | — | shared helpers: `Option`, ASCII lower-casing, `startsWith`/`includes`, `trim`, `filter`, `slice`, `join`, number printing |
| `CartContext` | `src/context/cart-context.tsx` | class `Cart` over a `seq` of cart lines |
| `UserContext` | `src/context/user-context.tsx` | class `UserSession`, plus pure login normalisation and time-remaining text |
| `LocalStorage` | the `localStorage` accesses of the pages | class `Storage` over a `map` |
| `LoginForm` | `src/components/auth/login-form.tsx` | pure submit handler |
| `RegisterForm` | `src/components/auth/register-form.tsx` | schema predicates and a `Register` method that writes the storage |
| `SendNotifications` | `src/app/admin/send-notifications/page.tsx` | pure list building, plus one storage write |
| `AdminAuth` | `src/context/admin-auth-context.tsx` | class `AdminSession` |
| `SensorDataRoute` | `src/app/api/sensor-data/route.ts` | schema validation, plus class `SensorStore` |
| `RealtimeDataGrid` | `src/components/dashboard/realtime-data-grid.tsx` | status rule, CSV rows, class `DataGrid` |
| `ManageIssues` | `src/app/admin/manage-issues/page.tsx` | list functions, CSV quoting, class `IssueTable` |
| `AdminUsers` | `src/app/admin/users/page.tsx` | list functions, class `UsersTable` |
| `Subscriptions` | `src/app/subscriptions/page.tsx` | pure plan and upgrade selection |
| `SidebarNav` | `src/components/layout/sidebar-nav.tsx` | pure rendering of the navigation tree |

The model follows these conventions:
- Time, ids and library decisions are parameters:
  - the current time is an integer count of milliseconds;
  - ids that mix in `Math.random()` are passed in;
  - e-mail and ISO date-time validity are predicates supplied by the caller;
  - locale date and time formatting are functions supplied by the caller.
- Ids built only from `Date.now()` (`usr_…`, `iss_…`) and the generated avatar URLs are computed from that time.
- Money is in integer cents and sensor numbers are integers.
- A React state update becomes a method that replaces a field.

## Model

| member | source | states |
|---|---|---|
| `Common.PrependCapped` | src/context/user-context.tsx:147 | `[x, ...s].slice(0, cap)`: `x` first, then the oldest-dropped prefix of `s`, length `min(|s|+1, cap)` |
| `Common.TrimStart` | src/context/user-context.tsx:196 | a suffix of the text that does not start with white space, everything cut being white space |
| `Common.TrimEnd` | src/context/user-context.tsx:196 | a prefix of the text that does not end with white space, everything cut being white space |
| `Common.SliceEnd` | src/components/dashboard/realtime-data-grid.tsx:60 | JavaScript `slice(0, end)` end index: an absent end keeps everything, a negative one counts from the back, never past the length |
| `CartContext.QuantityAdded` | src/context/cart-context.tsx:51-55 | every line with the id has its quantity raised by `delta`; products and order unchanged |
| `CartContext.Added` | src/context/cart-context.tsx:48-58 | a product already in the cart raises that line's quantity in place; a new product is appended as one fresh line |
| `CartContext.Removed` | src/context/cart-context.tsx:66 | no line with the id remains; exactly the other lines remain, each as often as before, in order |
| `CartContext.QuantitySet` | src/context/cart-context.tsx:81-85 | lines with the id take the new quantity; all else unchanged |
| `CartContext.QuantityAddedCount` | src/context/cart-context.tsx:51-55 | the item count rises by `delta` times the number of lines with the id |
| `CartContext.AddedKeepsIdsUnique` | src/context/cart-context.tsx:47-58 | adding keeps at most one line per product id |
| `CartContext.AddedGrowsItemCount` | src/context/cart-context.tsx:47-58 | after `addToCart(p, q)` the item count has grown by exactly `q` |
| `CartContext.RemovedKeepsIdsUnique` | src/context/cart-context.tsx:66 | removing keeps ids unique |
| `CartContext.QuantitySetKeepsIdsUnique` | src/context/cart-context.tsx:81-85 | updating a quantity keeps ids unique |
| `CartContext.Cart.constructor` | src/context/cart-context.tsx:27-28 | empty, closed cart |
| `CartContext.Cart.AddToCart` | src/context/cart-context.tsx:47-63 | cart becomes `Added(old, product, quantity)`; ids stay unique; item count grows by `quantity` |
| `CartContext.Cart.RemoveFromCart` | src/context/cart-context.tsx:65-74 | cart becomes `Removed(old, id)`; ids stay unique |
| `CartContext.Cart.UpdateQuantity` | src/context/cart-context.tsx:76-86 | quantity ≤ 0 removes the lines; otherwise sets the quantity; ids stay unique |
| `CartContext.Cart.ClearCart` | src/context/cart-context.tsx:88-94 | empty cart, item count and total 0 |
| `CartContext.Cart.ToggleCart` | src/context/cart-context.tsx:104-106 | open flag flips, lines unchanged |
| `CartContext.Cart.SetCartOpen` | src/context/cart-context.tsx:28 | open flag set, lines unchanged |
| `UserContext.Normalized` | src/context/user-context.tsx:121-130 | logged in; name is first + " " + last; empty plan becomes "None"; missing expiry becomes the epoch; other fields kept |
| `UserContext.NormalizedIdempotent` | src/context/user-context.tsx:121-130 | logging in a normalised record changes nothing |
| `UserContext.UnreadCount` | src/context/user-context.tsx:164 | unread count is at most the list length, 0 for no notifications |
| `UserContext.MarkedRead` | src/context/user-context.tsx:150-154 | entries with the id become read; nothing else changes; order kept |
| `UserContext.AllMarkedRead` | src/context/user-context.tsx:156-158 | every entry read; nothing else changes |
| `UserContext.AllMarkedReadHasNoUnread` | src/context/user-context.tsx:156-164 | unread count is 0 after marking all read |
| `UserContext.MarkedReadLowersUnread` | src/context/user-context.tsx:150-164 | marking one read never raises the unread count |
| `UserContext.RemainingParts` | src/context/user-context.tsx:185-189 | floor split of the ms difference: hours < 24, minutes < 60, total within one minute below the difference |
| `UserContext.RemainingText` | src/context/user-context.tsx:191-194 | "d" appears iff days > 0; "h" iff days or hours > 0; always ends in "m remaining" |
| `UserContext.RemainingTextReadsBack` | src/context/user-context.tsx:191-194 | reading the text back gives exactly the days, hours and minutes it was written from |
| `UserContext.RemainingOf` | src/context/user-context.tsx:166-189 | "N/A" case iff no user, logged out or plan "None"; no-expiry case; expired iff expiry < now; otherwise the floor split |
| `UserContext.RemainingLabel` | src/context/user-context.tsx:166-196 | "N/A", "No expiry date set." and "Expired" for those cases; a running plan shows the trimmed remaining text |
| `UserContext.LabelEndsInG` | src/context/user-context.tsx:168-196 | only the time-left text ends in "g" |
| `UserContext.RemainingLabelDistinguishes` | src/context/user-context.tsx:166-196 | equal texts mean equal cases |
| `UserContext.TimeRemainingOfActivePlan` | src/context/user-context.tsx:185-196 | for a running plan the text is the floor day/hour/minute text |
| `UserContext.UserSession.constructor` | src/context/user-context.tsx:71-72 | guest session, no notifications |
| `UserContext.UserSession.LoginUser` | src/context/user-context.tsx:121-132 | session becomes `Normalized(userData)` |
| `UserContext.UserSession.LogoutUser` | src/context/user-context.tsx:134-137 | session becomes the guest record |
| `UserContext.UserSession.AddNotification` | src/context/user-context.tsx:139-148 | new unread entry first; at most 20 kept |
| `UserContext.UserSession.MarkNotificationAsRead` | src/context/user-context.tsx:150-154 | list becomes `MarkedRead`; unread count does not rise |
| `UserContext.UserSession.MarkAllNotificationsAsRead` | src/context/user-context.tsx:156-158 | list becomes `AllMarkedRead`; unread count 0 |
| `UserContext.UserSession.ClearNotifications` | src/context/user-context.tsx:160-162 | empty list |
| `UserContext.UserSession.UnreadNotificationCount` | src/context/user-context.tsx:164 | at most the number of notifications |
| `UserContext.UserSession.GetSubscriptionDaysRemaining` | src/context/user-context.tsx:166-197 | "N/A" without a logged-in user; in general the label of the session user's case at that time |
| `LocalStorage.DecodeUsers` | src/components/auth/login-form.tsx:51-52 | missing or empty value reads as no accounts; a stored account list reads as exactly that list; anything else is a parse error |
| `LocalStorage.DecodeNotices` | src/app/admin/send-notifications/page.tsx:48-56 | a stored notification list reads as exactly that list; anything else reads as empty |
| `LocalStorage.Storage.GetItem` | src/components/auth/login-form.tsx:51 | `Some` iff the key is stored, with its value |
| `LocalStorage.Storage.SetItem` | src/components/auth/register-form.tsx:96 | only that key changes; reading it back gives the value |
| `LocalStorage.Storage.RemoveItem` | src/context/admin-auth-context.tsx:53 | only that key is dropped |
| `LoginForm.FindByEmail` | src/components/auth/login-form.tsx:54 | the first account with the e-mail, or none iff no account has it |
| `LoginForm.SessionRecord` | src/components/auth/login-form.tsx:81-96 | logged in; name first + " " + last; plan from the stored subscription; missing expiry is the epoch |
| `LoginForm.Login` | src/components/auth/login-form.tsx:50-108 | unexpected error iff the list does not parse; not found iff no account has the e-mail; a login only when the first account with that e-mail is active and has that password, with that account's normalised session |
| `LoginForm.LoginDecidedByFirstMatch` | src/components/auth/login-form.tsx:54-80 | for the first matching account: wrong password iff invalid credentials; login iff right password and active, with that account's session; pending and rejected likewise |
| `LoginForm.SessionRecordNormalized` | src/components/auth/login-form.tsx:81-96 | with a plan name, `loginUser` leaves the record as the form built it |
| `RegisterForm.ValidWhatsAppLength` | src/components/auth/register-form.tsx:27 | an accepted number has 10 to 16 characters, all digits after an optional "+" |
| `RegisterForm.MismatchedPasswordsRejected` | src/components/auth/register-form.tsx:31-34 | differing passwords are rejected |
| `RegisterForm.NewAccount` | src/components/auth/register-form.tsx:74-93 | pending; plan "None"; 0 devices; password as typed; names, e-mail, WhatsApp number, company and join date as given; `usr_<time>` id and avatar |
| `RegisterForm.AppendKeepsEmailsUnique` | src/components/auth/register-form.tsx:63-96 | appending an unused e-mail keeps e-mails unique |
| `RegisterForm.NewAccountLoginPending` | src/components/auth/register-form.tsx:89 | logging in to a fresh account reads as pending |
| `RegisterForm.Register` | src/components/auth/register-form.tsx:53-113 | schema rejection; parse failure; e-mail taken; otherwise exactly the new account appended and unique e-mails preserved; storage unchanged on every failure |
| `SendNotifications.Broadcast` | src/app/admin/send-notifications/page.tsx:58-65 | unread admin notification for "all_users" with the message |
| `SendNotifications.Broadcasted` | src/app/admin/send-notifications/page.tsx:47-67 | new entry first, then the stored ones in order, at most 50 |
| `SendNotifications.TwoBroadcastsNewestFirst` | src/app/admin/send-notifications/page.tsx:67 | after two broadcasts the later is first and the earlier second |
| `SendNotifications.UndecodableReadsEmpty` | src/app/admin/send-notifications/page.tsx:50-56 | an undecodable stored value leaves only the new entry |
| `SendNotifications.SendNotification` | src/app/admin/send-notifications/page.tsx:27-75 | sent iff the message has 10 to 500 characters; only the notification key changes |
| `AdminAuth.AdminSession.constructor` | src/context/admin-auth-context.tsx:21-22 | not admin, loading |
| `AdminAuth.AdminSession.Initialise` | src/context/admin-auth-context.tsx:25-35 | admin iff the stored flag is 'true' (or already admin); loading over |
| `AdminAuth.AdminSession.Login` | src/context/admin-auth-context.tsx:37-48 | true iff "admin"/"admin"; then admin and the flag stored; otherwise nothing changes |
| `AdminAuth.AdminSession.Logout` | src/context/admin-auth-context.tsx:50-58 | not admin; flag removed from storage |
| `SensorDataRoute.Validate` | src/app/api/sensor-data/route.ts:6-12 | accepted only for an object with a string `deviceId`; timestamps are date-times; non-objects rejected |
| `SensorDataRoute.Encode` | src/app/api/sensor-data/route.ts:6-12 | an encoded reading has `deviceId` and only schema keys |
| `SensorDataRoute.ValidateEncode` | src/app/api/sensor-data/route.ts:6-12 | a well-formed reading validates back to itself |
| `SensorDataRoute.ValidateIgnoresExtraKeys` | src/app/api/sensor-data/route.ts:6-12 | keys outside the schema do not change validation |
| `SensorDataRoute.ValidatedIsEncoded` | src/app/api/sensor-data/route.ts:6-12 | the schema fields of an accepted body are exactly the accepted reading written back as JSON, so no wrongly typed field is accepted |
| `SensorDataRoute.WronglyTypedRejected` | src/app/api/sensor-data/route.ts:8-11 | a non-number temperature or humidity, a non-boolean leak flag or a non-string id or timestamp is rejected |
| `SensorDataRoute.NullFieldRejected` | src/app/api/sensor-data/route.ts:8-11 | a `null` schema field is rejected |
| `SensorDataRoute.Stamped` | src/app/api/sensor-data/route.ts:36-40 | always timestamped; the device's timestamp kept, else the server time; nothing else changes |
| `SensorDataRoute.Upsert` | src/app/api/sensor-data/route.ts:36-40 | record replaced under its id; a new id joins the listing order at the end; consistency kept |
| `SensorDataRoute.UpsertTwice` | src/app/api/sensor-data/route.ts:36-40 | two posts for one device equal the later one alone |
| `SensorDataRoute.Listing` | src/app/api/sensor-data/route.ts:61 | the records in listing order |
| `SensorDataRoute.ListingOnePerDevice` | src/app/api/sensor-data/route.ts:61 | every stored device listed exactly once |
| `SensorDataRoute.SensorStore.constructor` | src/app/api/sensor-data/route.ts:22 | empty store |
| `SensorDataRoute.SensorStore.Post` | src/app/api/sensor-data/route.ts:24-55 | 400 for bad JSON; 400 iff validation fails; 500 for other failures; store unchanged then; otherwise 201 with the input, stored stamped |
| `SensorDataRoute.SensorStore.Get` | src/app/api/sensor-data/route.ts:57-67 | 200 with the listing |
| `RealtimeDataGrid.DeriveStatus` | src/components/dashboard/realtime-data-grid.tsx:12-32 | danger iff leaking; warning iff no leak and temperature or humidity out of range; ok otherwise; never offline |
| `RealtimeDataGrid.ToDisplay` | src/components/dashboard/realtime-data-grid.tsx:73-83 | card carries the reading, its status and state ON; "N/A" time without a timestamp |
| `RealtimeDataGrid.Displayed` | src/components/dashboard/realtime-data-grid.tsx:59-84 | the first min(slice end, 10) readings as cards, in order |
| `RealtimeDataGrid.DisplayedCount` | src/components/dashboard/realtime-data-grid.tsx:59-84 | with a limit m, min(m, readings, 10) cards |
| `RealtimeDataGrid.ShutdownNotice` | src/components/dashboard/realtime-data-grid.tsx:65-71 | an alert iff leaking or above 40 degrees; the leak alert naming the device for a leak, otherwise the temperature alert with the reading and the device |
| `RealtimeDataGrid.AlertsDiffer` | src/components/dashboard/realtime-data-grid.tsx:66-70 | a leak alert never reads the same as a temperature alert |
| `RealtimeDataGrid.ShutdownNotices` | src/components/dashboard/realtime-data-grid.tsx:62-72 | at most one alert per processed reading; none without the feature |
| `RealtimeDataGrid.ShutdownNoticesAreFiltered` | src/components/dashboard/realtime-data-grid.tsx:62-72 | with the feature, one alert per triggering reading, in reading order, the k-th being the alert of the k-th triggering reading |
| `RealtimeDataGrid.ShutdownNoticesCount` | src/components/dashboard/realtime-data-grid.tsx:65-71 | all leaking gives one alert each; no trigger gives none |
| `RealtimeDataGrid.WithDeviceState` | src/components/dashboard/realtime-data-grid.tsx:117 | cards with the id take the command; nothing else changes |
| `RealtimeDataGrid.WithDeviceStateIdempotent` | src/components/dashboard/realtime-data-grid.tsx:117 | repeating a command changes nothing more |
| `RealtimeDataGrid.CsvCells` | src/components/dashboard/realtime-data-grid.tsx:136-144 | seven cells: id, name, temperature and humidity ("N/A" when missing), "Detected"/"None" for the leak flag, the status word, the update time |
| `RealtimeDataGrid.CsvRecords` | src/components/dashboard/realtime-data-grid.tsx:135-144 | one comma-joined line per card, in card order |
| `RealtimeDataGrid.CsvLines` | src/components/dashboard/realtime-data-grid.tsx:133-145 | the header line then one line per card |
| `RealtimeDataGrid.SensorCsv` | src/components/dashboard/realtime-data-grid.tsx:123-146 | an export iff the feature is on and there are cards; lines joined with CRLF |
| `RealtimeDataGrid.SensorCsvLineCount` | src/components/dashboard/realtime-data-grid.tsx:133-146 | one line break per card |
| `RealtimeDataGrid.SkeletonCount` | src/components/dashboard/realtime-data-grid.tsx:176 | as written: a count only for a present, non-negative limit |
| `RealtimeDataGrid.PlaceholderCount` | src/components/dashboard/realtime-data-grid.tsx:224 | as written: a count only for a present limit |
| `RealtimeDataGrid.SessionGridThrows` | src/components/dashboard/realtime-data-grid.tsx:176 | session records have no limit, so both counts fail |
| `RealtimeDataGrid.SkeletonSlots` | src/components/dashboard/realtime-data-grid.tsx:176 | at most 4; 4 without a limit; min(limit, 4) otherwise |
| `RealtimeDataGrid.PlaceholderSlots` | src/components/dashboard/realtime-data-grid.tsx:224 | cards plus slots fill the limit capped at 10 |
| `RealtimeDataGrid.CorrectedCountsAgree` | src/components/dashboard/realtime-data-grid.tsx:176 | the corrected counts equal the source's wherever the source does not throw |
| `RealtimeDataGrid.DataGrid.constructor` | src/components/dashboard/realtime-data-grid.tsx:37-39 | no cards, loading, no error |
| `RealtimeDataGrid.DataGrid.FetchData` | src/components/dashboard/realtime-data-grid.tsx:43-94 | no user clears the grid; a failure records the message; a success shows `Displayed` and returns the shutdown alerts; at most 10 cards; loading over |
| `RealtimeDataGrid.DataGrid.SendCommand` | src/components/dashboard/realtime-data-grid.tsx:102-121 | with control and delivery the card takes the state; otherwise nothing changes |
| `ManageIssues.DraftOf` | src/app/admin/manage-issues/page.tsx:72-75 | the draft carries the issue's id and title |
| `ManageIssues.AsIssue` | src/app/admin/manage-issues/page.tsx:84 | a draft with an id keeps it |
| `ManageIssues.AsIssueDraftOf` | src/app/admin/manage-issues/page.tsx:72-84 | saving an untouched edit gives the issue back |
| `ManageIssues.NewIssue` | src/app/admin/manage-issues/page.tsx:86-93 | `iss_<time>` id; empty causes and solutions by default; default picture for a missing or empty one; the time for a missing date |
| `ManageIssues.Deleted` | src/app/admin/manage-issues/page.tsx:77-79 | exactly the issues with other ids remain, each as often as before, in order |
| `ManageIssues.Saved` | src/app/admin/manage-issues/page.tsx:81-96 | an edit replaces issues with that id in place; a new issue is appended |
| `ManageIssues.SavedEditKeepsIds` | src/app/admin/manage-issues/page.tsx:83-84 | an edit keeps every id in place |
| `ManageIssues.DeleteUndoesAdd` | src/app/admin/manage-issues/page.tsx:77-94 | deleting a just-added issue restores the list |
| `ManageIssues.Filtered` | src/app/admin/manage-issues/page.tsx:101-104 | exactly the issues whose title or description contains the term, ignoring case, each as often as before, in order |
| `ManageIssues.FilteredEmptyTerm` | src/app/admin/manage-issues/page.tsx:101-104 | an empty term keeps all |
| `ManageIssues.FilteredIgnoresTermCase` | src/app/admin/manage-issues/page.tsx:101-104 | the term's case does not matter |
| `ManageIssues.NewRecordAsWritten` | src/app/admin/manage-issues/page.tsx:85-92 | the stored record keeps the draft's title and description, missing or not; read with "" for missing text it is the model's new issue |
| `ManageIssues.RawMatches` | src/app/admin/manage-issues/page.tsx:101-104 | a missing title throws; a matching title short-circuits to true; with both texts present, the model's search test |
| `ManageIssues.RawFiltered` | src/app/admin/manage-issues/page.tsx:101-104 | the search throws iff the test throws on some record |
| `ManageIssues.UntitledIssueBreaksSearch` | src/app/admin/manage-issues/page.tsx:67-70 | after adding an issue with no title typed, the search throws for every term |
| `ManageIssues.UntitledIssueSearchable` | src/app/admin/manage-issues/page.tsx:85-104 | with missing text read as "", that issue is kept exactly by an empty search |
| `ManageIssues.EscapeQuotes` | src/app/admin/manage-issues/page.tsx:112 | one extra character per double quote |
| `ManageIssues.Quote` | src/app/admin/manage-issues/page.tsx:112-116 | the field starts and ends with a double quote |
| `ManageIssues.UnescapeEscape` | src/app/admin/manage-issues/page.tsx:112 | un-doubling the quotes gives the text back |
| `ManageIssues.UnquoteQuote` | src/app/admin/manage-issues/page.tsx:112-116 | a quoted field reads back as the text |
| `ManageIssues.IssueCells` | src/app/admin/manage-issues/page.tsx:110-118 | seven cells: id, quoted title, quoted description, image URL, quoted "; "-joined causes, quoted "; "-joined solutions, formatted date or "" |
| `ManageIssues.IssueRecords` | src/app/admin/manage-issues/page.tsx:109-118 | one comma-joined record per issue, in list order |
| `ManageIssues.IssueCsvLines` | src/app/admin/manage-issues/page.tsx:107-119 | header then one record per issue |
| `ManageIssues.IssueCsvLineCount` | src/app/admin/manage-issues/page.tsx:107-120 | when no issue's texts or written date hold a line feed, one line break per issue |
| `ManageIssues.WeeklyIssues` | src/app/admin/manage-issues/page.tsx:134-138 | exactly the issues dated within the last week, each as often as before, in order |
| `ManageIssues.IssueTable.constructor` | src/app/admin/manage-issues/page.tsx:62-64 | initial list, closed dialog, no draft |
| `ManageIssues.IssueTable.AddNew` | src/app/admin/manage-issues/page.tsx:67-70 | an empty draft dated now; dialog open |
| `ManageIssues.IssueTable.Edit` | src/app/admin/manage-issues/page.tsx:72-75 | the issue's draft; dialog open |
| `ManageIssues.IssueTable.Delete` | src/app/admin/manage-issues/page.tsx:77-79 | list becomes `Deleted` |
| `ManageIssues.IssueTable.SaveIssue` | src/app/admin/manage-issues/page.tsx:81-99 | list becomes `Saved` when there is a draft; dialog closed and draft dropped |
| `AdminUsers.DefaultNewUser` | src/app/admin/users/page.tsx:62-69 | empty name and e-mail, "Basic", 0 devices, the load day as join date, empty avatar |
| `AdminUsers.FormOf` | src/app/admin/users/page.tsx:83 | the form carries every field of the user; a missing picture stays absent |
| `AdminUsers.Merge` | src/app/admin/users/page.tsx:102 | each of id, name, e-mail, plan, device count, join date and avatar is the form's when present, otherwise the user's |
| `AdminUsers.MergeFormOf` | src/app/admin/users/page.tsx:83-102 | a user's own form overrides every field of any base, except a picture the user lacks |
| `AdminUsers.GeneratedAvatar` | src/app/admin/users/page.tsx:88 | a non-empty generated URL |
| `AdminUsers.NewUser` | src/app/admin/users/page.tsx:105-110 | the form's id, plan, device count and join date when present, otherwise `usr_<time>`, "Basic", 0 and the load day; the form's name and e-mail; the form's picture when non-empty, otherwise the generated one |
| `AdminUsers.SavedUsers` | src/app/admin/users/page.tsx:95-113 | incomplete form: unchanged; edit: merged in place; add: new user first |
| `AdminUsers.SavedEditKeepsIds` | src/app/admin/users/page.tsx:101-102 | an edit with the user's own id keeps every id |
| `AdminUsers.SaveUntouchedEdit` | src/app/admin/users/page.tsx:81-102 | saving an untouched edit leaves the table unchanged |
| `AdminUsers.DeletedUsers` | src/app/admin/users/page.tsx:120 | exactly the users with other ids remain, each as often as before, in order |
| `AdminUsers.DeleteUndoesAdd` | src/app/admin/users/page.tsx:104-120 | deleting a just-added user restores the table |
| `AdminUsers.FilteredUsers` | src/app/admin/users/page.tsx:124-127 | exactly the users whose name or e-mail contains the term, ignoring case, each as often as before, in order |
| `AdminUsers.FilteredUsersTerm` | src/app/admin/users/page.tsx:124-127 | the term's case does not matter; an empty term keeps all |
| `AdminUsers.UsersTable.constructor` | src/app/admin/users/page.tsx:74-78 | initial table, closed dialog, default form, not editing |
| `AdminUsers.UsersTable.OpenForEdit` | src/app/admin/users/page.tsx:81-84 | the user's form, editing its id, dialog open |
| `AdminUsers.UsersTable.OpenForAdd` | src/app/admin/users/page.tsx:85-92 | defaults with a generated avatar, not editing, dialog open |
| `AdminUsers.UsersTable.SaveUser` | src/app/admin/users/page.tsx:95-117 | saved iff name and e-mail are present; table becomes `SavedUsers` and the editor resets; otherwise nothing changes |
| `AdminUsers.UsersTable.DeleteUser` | src/app/admin/users/page.tsx:119-122 | table becomes `DeletedUsers` |
| `Subscriptions.FindByName` | src/app/subscriptions/page.tsx:82 | a plan whose lower-cased name matches, or none iff no plan does |
| `Subscriptions.FindByNameIsFirst` | src/app/subscriptions/page.tsx:82 | the plan found by name is the first match: every plan before it has another lower-cased name |
| `Subscriptions.FindById` | src/app/subscriptions/page.tsx:88 | a plan with the id, or none iff no plan has it |
| `Subscriptions.FindByIdIsFirst` | src/app/subscriptions/page.tsx:88 | the plan found by id is the first match: every plan before it has another id |
| `Subscriptions.Pushed` | src/app/subscriptions/page.tsx:89 | a found plan is appended |
| `Subscriptions.UpgradesOfEachPlan` | src/app/subscriptions/page.tsx:86-97 | Basic offers [Premium, Enterprise]; Premium offers [Enterprise]; Enterprise offers nothing |
| `Subscriptions.UpgradesComeLater` | src/app/subscriptions/page.tsx:86-97 | an upgrade is never the plan held and comes later in the catalogue |
| `Subscriptions.PlanKey` | src/app/subscriptions/page.tsx:78 | lower-cased plan when logged in, "none" otherwise |
| `Subscriptions.ExpiredText` | src/app/subscriptions/page.tsx:79 | the time text is "Expired" exactly in the expired case |
| `Subscriptions.SelectCurrentPlan` | src/app/subscriptions/page.tsx:75-107 | a plan is current iff logged in, not "none", a catalogue match ignoring case, and not expired; then its upgrades are shown, otherwise the whole catalogue |
| `Subscriptions.NoPlanIsNamedNone` | src/app/subscriptions/page.tsx:14-66 | no catalogue plan lower-cases to "none" |
| `Subscriptions.SelectDependsOnKey` | src/app/subscriptions/page.tsx:75-107 | the plan held and the plans shown depend only on sign-in, the lower-cased plan name and, for a plan other than "none", the time text |
| `Subscriptions.SelectIgnoresPlanCase` | src/app/subscriptions/page.tsx:78-84 | the current plan and the shown plans depend on the plan name only up to case |
| `SidebarNav.Render` | src/components/layout/sidebar-nav.tsx:87-138 | drawn iff the guards pass; a button iff the entry has an action; a link points at the entry's own href; the sub-menu is drawn iff there are sub-items, the parent is active, and the viewer is an admin for an admin-only parent; a drawn sub-menu is the drawing of the sub-items; the drawing keeps the entry's label, and a button runs the entry's action |
| `SidebarNav.RenderAll` | src/components/layout/sidebar-nav.tsx:133 | no more drawn entries than entries |
| `SidebarNav.LogoutItems` | src/components/layout/sidebar-nav.tsx:156-161 | at most one logout entry; one iff admin or signed in; "Admin Logout" running the admin logout for an administrator, otherwise "User Logout" running the user logout |
| `SidebarNav.GuardsOfDrawnEntry` | src/components/layout/sidebar-nav.tsx:88-90 | admin-only entries drawn only for admins; user-only only for signed-in non-admins; guest-only only for nobody signed in |
| `SidebarNav.GuestAndUserEntriesExclusive` | src/components/layout/sidebar-nav.tsx:89-90 | a guest-only and a user-only entry are never both drawn |
| `SidebarNav.ExactActiveImpliesPrefixActive` | src/components/layout/sidebar-nav.tsx:93 | exact-active implies prefix-active |
| `SidebarNav.DrawnLinkKeepsHref` | src/components/layout/sidebar-nav.tsx:88-103 | for a visible entry `effectiveHref` is its href |
| `SidebarNav.RenderAllVisible` | src/components/layout/sidebar-nav.tsx:87-133 | one drawing per visible entry, in order: the k-th drawn element is the drawing of the k-th visible entry |
| `SidebarNav.NoActionNoButtons` | src/components/layout/sidebar-nav.tsx:75-79 | entries without actions draw no buttons |
| `SidebarNav.LogoutButtonCount` | src/components/layout/sidebar-nav.tsx:155-161 | the bottom menu holds at most one logout button, and one iff admin or signed in |
| `SidebarNav.BottomEndsWithMatchingLogout` | src/components/layout/sidebar-nav.tsx:155-161 | for anyone signed in, the bottom menu ends with the logout button of their kind of session |

## Left out

- Persistence effects are not modelled: the session and notification save and restore (src/context/user-context.tsx:75-118) and the cart's (src/context/cart-context.tsx:31-45). The initial welcome notifications they seed are out too.
- UI-only behaviour is not modelled: toasts, router navigation, the one-second submit delays, loading spinners and the 15-second polling interval.
- Floating-point prices are not modelled: `priceValue` and `toFixed`. The cart uses integer cents.
- Library decisions are parameters: the validation library's e-mail and ISO date-time checks, `toLocaleDateString`/`toLocaleTimeString`, and date-fns `format`.
- Randomised ids are parameters: notification ids that mix in `Math.random()`.
- The monthly issue export (`setMonth` calendar arithmetic) is not modelled, nor the CSV download mechanics (Blob, link click, file name).
- The AI troubleshooting flow, the troubleshooting form and the device-command API route are not modelled; the grid takes a command's delivery as a parameter.
- JSON encoding is not modelled. A stored value is decoded data or an undecodable string.
- `LocalStorage.DecodeUsers`: a notification list stored under the accounts key counts as a parse error. The source would read it as a list of records without e-mails.
- `LocalStorage.DecodeNotices`: an account list stored under the notifications key reads as empty. The source would keep the parsed array and put the new notification in front of it.
- `SensorDataRoute.Listing`: `Object.values` is listed in first-insertion order. JavaScript lists integer-like keys first, and a `__proto__` device id is special; neither is modelled.
- Lower-casing is ASCII only; `toLowerCase` on other scripts is not modelled.
- Dates are integer milliseconds, so invalid date strings (`new Date` giving NaN) are not modelled.
- `Subscriptions.Select`: with no user record the effect leaves the current plan and the time text as they were. The model gives their initial values (no plan, empty text). The page's render-time checks (src/app/subscriptions/page.tsx:110-228) are not modelled.
- `RealtimeDataGrid.DataGrid.FetchData`: the interim state with `loading` true while the request is in flight is not kept. The method gives the state after the request settles.
- `ManageIssues.AsIssue`: a missing title or description becomes "". In the source the field stays absent. The search then throws (see "## Findings"). `exportToCSV` would throw on it too (`replace` on a missing title); the model's export writes an empty quoted field instead.
- `RegisterForm.SchemaAccepts` and `SendNotifications.ValidMessage`: lengths are counted in characters. The validation library counts UTF-16 code units, so a character outside the Basic Multilingual Plane (an emoji) counts once here and twice in the source.
- `LoginForm.Login`: the login form's schema (a well-formed e-mail, a non-empty password; src/components/auth/login-form.tsx:25-28) is left to the validation library. The handler is modelled for every input.
- `UserContext.UserSession.constructor`: starts with no notifications, the state before the mount effect runs.
- `AdminAuth`: a `localStorage` access that throws is not modelled; the storage always answers.

## Findings

| source | as written | input that shows it | evidently intended | confidence | as-written member | corrected member |
|---|---|---|---|---|---|---|
| src/components/dashboard/realtime-data-grid.tsx:176,224 | The skeleton and empty-slot counts read `currentUser.subscription.maxDevices`. Session records carry only `planName` and `expiryDate` (src/context/user-context.tsx:8-11, 121-130). So `Math.min(undefined, 4)` and `Math.max(0, undefined - n)` are NaN, and `Array(NaN)` throws a RangeError. | any logged-in user while the first fetch is loading (`loading` and no cards); or once a fetch has shown at least one card | a missing limit read as "no limit", as the device slice at line 60 already reads it: 4 skeletons, and empty slots up to 10 cards in all | not executed | `RealtimeDataGrid.SkeletonCount`, `RealtimeDataGrid.PlaceholderCount`, `RealtimeDataGrid.SessionGridThrows` | `RealtimeDataGrid.SkeletonSlots`, `RealtimeDataGrid.PlaceholderSlots`, `RealtimeDataGrid.CorrectedCountsAgree` |
| src/app/admin/manage-issues/page.tsx:67-70,85-94,101-104 | "Add New Issue" starts a draft holding only a date. Saving it without typing a title stores a record with no `title` (`as Issue` checks nothing). `filteredIssues` runs on every render and calls `issue.title.toLowerCase()`, which then throws a TypeError. A missing description throws likewise whenever the title does not match. | open "Add New Issue", leave the title empty, save: the next render throws whatever the search term | a missing title or description read as "", so the new issue is kept by an empty search and the page keeps working | not executed | `ManageIssues.NewRecordAsWritten`, `ManageIssues.RawMatches`, `ManageIssues.RawFiltered`, `ManageIssues.UntitledIssueBreaksSearch` | `ManageIssues.NewIssue`, `ManageIssues.Filtered`, `ManageIssues.UntitledIssueSearchable` |

=== FILE: admin_auth.dfy ===
/** The admin session flags (`AdminAuthProvider`): `isAdmin`, set by a login with the
    fixed credentials and cleared by logout, mirrored in the stored
    'isAdminAuthenticated' flag; and `isLoading`, true until the stored flag has been
    read once. */
module AdminAuth {
  import opened Common
  import opened LocalStorage

  const AdminUsername := "admin"
  const AdminPassword := "admin"

  /** The stored flag reads as an admin session exactly when it holds the text 'true'. */
  predicate StoredAsAdmin(flag: Option<StoredValue>)
  {
    flag == Some(Text("true"))
  }

  /** The credential check of `login`. */
  predicate Accepts(username: string, password: string)
  {
    username == AdminUsername && password == AdminPassword
  }

  class AdminSession {
    var isAdmin: bool
    var isLoading: bool

    constructor ()
      ensures !isAdmin && isLoading
    {
      isAdmin := false;
      isLoading := true;
    }

    /** The mount effect: a stored 'true' flag makes the session an admin one; either
        way loading is over. */
    method Initialise(storage: Storage)
      modifies this
      ensures isAdmin == (old(isAdmin) || StoredAsAdmin(storage.GetItem(AdminFlagKey)))
      ensures !isLoading
    {
      if StoredAsAdmin(storage.GetItem(AdminFlagKey)) {
        isAdmin := true;
      }
      isLoading := false;
    }

    /** `login(username, password)`: the right credentials set the flag in memory and in
        storage; wrong ones change nothing. */
    method Login(storage: Storage, username: string, password: string) returns (ok: bool)
      modifies this, storage
      ensures ok <==> Accepts(username, password)
      ensures ok ==> isAdmin && storage.entries == old(storage.entries)[AdminFlagKey := Text("true")]
      ensures ok ==> StoredAsAdmin(storage.GetItem(AdminFlagKey))
      ensures !ok ==> isAdmin == old(isAdmin) && storage.entries == old(storage.entries)
      ensures isLoading == old(isLoading)
    {
      if Accepts(username, password) {
        isAdmin := true;
        storage.SetItem(AdminFlagKey, Text("true"));
        return true;
      }
      return false;
    }

    /** `logout()`: the flag is cleared in memory and removed from storage; the
        redirect is left out. */
    method Logout(storage: Storage)
      modifies this, storage
      ensures !isAdmin && isLoading == old(isLoading)
      ensures storage.entries == old(storage.entries) - {AdminFlagKey}
      ensures !StoredAsAdmin(storage.GetItem(AdminFlagKey))
    {
      isAdmin := false;
      storage.RemoveItem(AdminFlagKey);
    }
  }
}

=== FILE: admin_users.dfy ===
/** The admin "manage users" page: the user table with save (merge into the user being
    edited, or put a new user first), delete, and the case-insensitive search on name
    and e-mail. The page keeps its table in memory only. */
module AdminUsers {
  import opened Common

  datatype AdminUser = AdminUser(
    id: string,
    name: string,
    email: string,
    subscription: string,
    devices: int,
    joinedDate: string,
    avatarUrl: Option<string>)

  /** `Partial<AdminUser>`, the record being edited in the dialog: `None` where the key
      is absent. */
  datatype UserForm = UserForm(
    id: Option<string>,
    name: Option<string>,
    email: Option<string>,
    subscription: Option<string>,
    devices: Option<int>,
    joinedDate: Option<string>,
    avatarUrl: Option<string>)

  /** `defaultNewUser`; its join date is the day the page was loaded. */
  function DefaultNewUser(today: string): (f: UserForm)
    ensures f.id.None? && f.name == Some("") && f.email == Some("")
    ensures f.subscription == Some("Basic") && f.devices == Some(0) && f.avatarUrl == Some("")
    ensures f.joinedDate == Some(today)
  {
    UserForm(None, Some(""), Some(""), Some("Basic"), Some(0), Some(today), Some(""))
  }

  /** The dialog's form for an existing user. */
  function FormOf(u: AdminUser): (f: UserForm)
    ensures f.id == Some(u.id) && f.name == Some(u.name) && f.email == Some(u.email)
    ensures f.subscription == Some(u.subscription) && f.devices == Some(u.devices)
    ensures f.joinedDate == Some(u.joinedDate) && f.avatarUrl == u.avatarUrl
  {
    UserForm(Some(u.id), Some(u.name), Some(u.email), Some(u.subscription), Some(u.devices),
             Some(u.joinedDate), u.avatarUrl)
  }

  /** `{ ...base, ...form }`: every key the form has overrides the user's. */
  function Merge(base: AdminUser, form: UserForm): (u: AdminUser)
    ensures u.name == form.name.GetOr(base.name) && u.email == form.email.GetOr(base.email)
    ensures u.id == form.id.GetOr(base.id)
    ensures u.subscription == form.subscription.GetOr(base.subscription)
    ensures u.devices == form.devices.GetOr(base.devices) && u.joinedDate == form.joinedDate.GetOr(base.joinedDate)
    ensures form.avatarUrl.Some? ==> u.avatarUrl == form.avatarUrl
    ensures form.avatarUrl.None? ==> u.avatarUrl == base.avatarUrl
  {
    AdminUser(form.id.GetOr(base.id), form.name.GetOr(base.name), form.email.GetOr(base.email),
              form.subscription.GetOr(base.subscription), form.devices.GetOr(base.devices),
              form.joinedDate.GetOr(base.joinedDate),
              if form.avatarUrl.Some? then form.avatarUrl else base.avatarUrl)
  }

  /** The save guard: a name and an e-mail that are present and non-empty. */
  predicate Complete(form: UserForm)
  {
    form.name.Some? && form.name.value != "" && form.email.Some? && form.email.value != ""
  }

  /** `usr_${now}`, the id a user added at time `now` gets. */
  function NewUserId(now: int): string
  {
    "usr_" + IntToString(now)
  }

  /** The generated picture for time `now`. */
  function GeneratedAvatar(now: int): (url: string)
    ensures url != ""
  {
    "https://picsum.photos/seed/" + IntToString(now) + "/40/40"
  }

  /** The new user built from the form at time `now`: the generated id, then the
      defaults, then the form's own keys, and the generated picture when the form has
      none or an empty one. */
  function NewUser(form: UserForm, now: int, today: string): (u: AdminUser)
    ensures form.subscription.None? ==> u.subscription == "Basic"
    ensures form.devices.None? ==> u.devices == 0
    ensures u.id == form.id.GetOr(NewUserId(now))
    ensures u.subscription == form.subscription.GetOr("Basic") && u.devices == form.devices.GetOr(0)
    ensures u.joinedDate == form.joinedDate.GetOr(today)
    ensures u.name == form.name.GetOr("") && u.email == form.email.GetOr("")
    ensures u.avatarUrl.Some? && u.avatarUrl.value != ""
    ensures form.avatarUrl.Some? && form.avatarUrl.value != "" ==> u.avatarUrl == form.avatarUrl
    ensures !(form.avatarUrl.Some? && form.avatarUrl.value != "") ==> u.avatarUrl == Some(GeneratedAvatar(now))
  {
    var base := AdminUser(NewUserId(now), "", "", "Basic", 0, today, Some(""));
    var merged := Merge(Merge(base, DefaultNewUser(today)), form);
    var avatar := if form.avatarUrl.Some? && form.avatarUrl.value != "" then form.avatarUrl.value
                  else GeneratedAvatar(now);
    merged.(avatarUrl := Some(avatar))
  }

  /** A user's own form overrides every field, whatever it is merged into, except a
      picture the user does not have: that key is absent from the form, so the base
      keeps its own. */
  lemma MergeFormOf(base: AdminUser, u: AdminUser)
    ensures Merge(base, FormOf(u)) == if u.avatarUrl.Some? then u else u.(avatarUrl := base.avatarUrl)
  {
    var f := FormOf(u);
    assert f.name.GetOr(base.name) == u.name && f.email.GetOr(base.email) == u.email;
    assert f.id.GetOr(base.id) == u.id && f.subscription.GetOr(base.subscription) == u.subscription;
    assert f.devices.GetOr(base.devices) == u.devices && f.joinedDate.GetOr(base.joinedDate) == u.joinedDate;
  }

  /** `editingUserId` holds a non-empty id: the save edits that user. */
  predicate Editing(editingUserId: Option<string>)
  {
    editingUserId.Some? && editingUserId.value != ""
  }

  /** The table `handleSaveUser()` leaves: unchanged for an incomplete form; otherwise
      the form merged into every user with the edited id, in place, or a new user in
      front. */
  function SavedUsers(users: seq<AdminUser>, form: UserForm, editingUserId: Option<string>,
                      now: int, today: string): (r: seq<AdminUser>)
    ensures !Complete(form) ==> r == users
    ensures Complete(form) && Editing(editingUserId) ==> |r| == |users|
    ensures Complete(form) && Editing(editingUserId) ==>
      forall i :: 0 <= i < |r| ==>
        r[i] == (if users[i].id == editingUserId.value then Merge(users[i], form) else users[i])
    ensures Complete(form) && !Editing(editingUserId) ==>
      r == [NewUser(form, now, today)] + users
  {
    if !Complete(form) then users
    else if Editing(editingUserId) then
      seq(|users|, i requires 0 <= i < |users| =>
        if users[i].id == editingUserId.value then Merge(users[i], form) else users[i])
    else [NewUser(form, now, today)] + users
  }

  /** Saving an edit with the user's own id leaves every id where it was. */
  lemma SavedEditKeepsIds(users: seq<AdminUser>, form: UserForm, editingUserId: Option<string>,
                          now: int, today: string)
    requires Complete(form) && Editing(editingUserId) && form.id == editingUserId
    ensures var r := SavedUsers(users, form, editingUserId, now, today);
      forall i :: 0 <= i < |r| ==> r[i].id == users[i].id
  {
  }

  /** Opening a user for edit and saving the dialog untouched leaves the table as it
      was. */
  lemma SaveUntouchedEdit(users: seq<AdminUser>, u: AdminUser, now: int, today: string)
    requires u.id != "" && u.name != "" && u.email != ""
    requires forall i :: 0 <= i < |users| && users[i].id == u.id ==> users[i] == u
    ensures SavedUsers(users, FormOf(u), Some(u.id), now, today) == users
  {
    var r := SavedUsers(users, FormOf(u), Some(u.id), now, today);
    forall i | 0 <= i < |users| ensures r[i] == users[i] {
      if users[i].id == u.id {
        MergeFormOf(users[i], u);
      }
    }
  }

  /** The table `handleDeleteUser(userId)` leaves. */
  function DeletedUsers(users: seq<AdminUser>, userId: string): (r: seq<AdminUser>)
    ensures forall x :: x in r <==> x in users && x.id != userId
    ensures forall x :: multiset(r)[x] == if x.id != userId then multiset(users)[x] else 0
    ensures IsSubsequence(r, users)
  {
    var keep := (x: AdminUser) => x.id != userId;
    FilterKeeps(users, keep);
    Filter(users, keep)
  }

  /** Deleting the user just added in front, when its id was fresh, gives the old
      table back. */
  lemma DeleteUndoesAdd(users: seq<AdminUser>, form: UserForm, now: int, today: string)
    requires Complete(form) && form.id.None?
    requires forall i :: 0 <= i < |users| ==> users[i].id != NewUserId(now)
    ensures DeletedUsers(SavedUsers(users, form, None, now, today), NewUserId(now)) == users
  {
    var keep := (x: AdminUser) => x.id != NewUserId(now);
    var added := [NewUser(form, now, today)] + users;
    assert added[1..] == users;
    assert forall x :: x in users ==> keep(x);
    FilterAll(users, keep);
  }

  /** The search test: the lower-cased term occurs in the lower-cased name or
      e-mail. */
  predicate Matches(u: AdminUser, term: string)
  {
    Includes(ToLower(u.name), ToLower(term)) || Includes(ToLower(u.email), ToLower(term))
  }

  /** `filteredUsers`. */
  function FilteredUsers(users: seq<AdminUser>, term: string): (r: seq<AdminUser>)
    ensures forall x :: x in r <==> x in users && Matches(x, term)
    ensures forall x :: multiset(r)[x] == if Matches(x, term) then multiset(users)[x] else 0
    ensures IsSubsequence(r, users)
  {
    FilterKeeps(users, (x: AdminUser) => Matches(x, term));
    Filter(users, (x: AdminUser) => Matches(x, term))
  }

  /** The search ignores the case of the term, and an empty term keeps everyone. */
  lemma FilteredUsersTerm(users: seq<AdminUser>, term: string)
    ensures FilteredUsers(users, ToLower(term)) == FilteredUsers(users, term)
    ensures FilteredUsers(users, "") == users
  {
    ToLowerIdempotent(term);
    FilterAgree(users, (x: AdminUser) => Matches(x, ToLower(term)), (x: AdminUser) => Matches(x, term));
    forall x | x in users ensures Matches(x, "") {
      IncludesEmpty(ToLower(x.name));
    }
    FilterAll(users, (x: AdminUser) => Matches(x, ""));
  }

  class UsersTable {
    var users: seq<AdminUser>
    var isUserModalOpen: bool
    var currentUserData: UserForm
    var editingUserId: Option<string>
    const today: string

    constructor (initial: seq<AdminUser>, today: string)
      ensures users == initial && !isUserModalOpen && editingUserId.None?
      ensures currentUserData == DefaultNewUser(today) && this.today == today
    {
      users := initial;
      isUserModalOpen := false;
      currentUserData := DefaultNewUser(today);
      editingUserId := None;
      this.today := today;
    }

    /** `handleOpenUserModal(userToEdit)`: the user's own record for an edit. */
    method OpenForEdit(u: AdminUser)
      modifies this
      ensures currentUserData == FormOf(u) && editingUserId == Some(u.id) && isUserModalOpen
      ensures users == old(users)
    {
      currentUserData := FormOf(u);
      editingUserId := Some(u.id);
      isUserModalOpen := true;
    }

    /** `handleOpenUserModal()`: the defaults with a generated picture for an addition. */
    method OpenForAdd(now: int)
      modifies this
      ensures currentUserData == DefaultNewUser(today).(avatarUrl := Some(GeneratedAvatar(now)))
      ensures editingUserId.None? && isUserModalOpen && users == old(users)
    {
      currentUserData := DefaultNewUser(today).(avatarUrl := Some(GeneratedAvatar(now)));
      editingUserId := None;
      isUserModalOpen := true;
    }

    /** `handleSaveUser()`: an incomplete form changes nothing (the error is shown); a
        complete one is saved and the dialog resets. */
    method SaveUser(now: int) returns (saved: bool)
      modifies this
      ensures saved <==> Complete(old(currentUserData))
      ensures !saved ==> (users == old(users) && currentUserData == old(currentUserData) &&
                          editingUserId == old(editingUserId) && isUserModalOpen == old(isUserModalOpen))
      ensures saved ==>
        users == SavedUsers(old(users), old(currentUserData), old(editingUserId), now, today) &&
        !isUserModalOpen && currentUserData == DefaultNewUser(today) && editingUserId.None?
    {
      if !Complete(currentUserData) {
        return false;
      }
      users := SavedUsers(users, currentUserData, editingUserId, now, today);
      isUserModalOpen := false;
      currentUserData := DefaultNewUser(today);
      editingUserId := None;
      saved := true;
    }

    /** `handleDeleteUser(userId)`. */
    method DeleteUser(userId: string)
      modifies this
      ensures users == DeletedUsers(old(users), userId)
      ensures currentUserData == old(currentUserData) && editingUserId == old(editingUserId)
      ensures isUserModalOpen == old(isUserModalOpen)
    {
      users := DeletedUsers(users, userId);
    }
  }
}

=== FILE: cart_context.dfy ===
/** The shopping cart store (`CartProvider`): a list of cart lines, at most one per
    product id, replaced as a whole by add, remove, update-quantity and clear, with
    the item count and the cart total as reductions over it. Prices are in cents. */
module CartContext {
  import opened Common

  datatype Category = Sensor | Equipment | Subscription

  datatype Product = Product(
    id: string,
    name: string,
    description: string,
    priceCents: int,
    imageUrl: string,
    category: Category,
    stock: Option<int>)

  /** A cart line: the product as it was when first added, and how many of it. */
  datatype CartItem = CartItem(product: Product, quantity: int)

  predicate HasId(items: seq<CartItem>, id: string)
  {
    exists i | 0 <= i < |items| :: items[i].product.id == id
  }

  /** The invariant the store keeps: no two lines for the same product id. */
  predicate UniqueIds(items: seq<CartItem>)
  {
    forall i, j | 0 <= i < j < |items| :: items[i].product.id != items[j].product.id
  }

  /** Number of lines that carry `id`. */
  function Occurrences(items: seq<CartItem>, id: string): nat
  {
    if items == [] then 0
    else Occurrences(items[..|items| - 1], id) + (if items[|items| - 1].product.id == id then 1 else 0)
  }

  /** `itemCount`: the sum of the quantities, accumulated from the left. */
  function ItemCount(items: seq<CartItem>): int
  {
    if items == [] then 0 else ItemCount(items[..|items| - 1]) + items[|items| - 1].quantity
  }

  /** `cartTotal`: the sum of price times quantity, in cents. */
  function CartTotal(items: seq<CartItem>): int
  {
    if items == [] then 0
    else CartTotal(items[..|items| - 1]) + items[|items| - 1].product.priceCents * items[|items| - 1].quantity
  }

  /** Adds `delta` to the quantity of every line with the id; nothing else changes. */
  function QuantityAdded(items: seq<CartItem>, id: string, delta: int): (r: seq<CartItem>)
    ensures |r| == |items|
    ensures forall i :: 0 <= i < |r| ==> r[i].product == items[i].product
  {
    seq(|items|, i requires 0 <= i < |items| =>
      if items[i].product.id == id then items[i].(quantity := items[i].quantity + delta) else items[i])
  }

  /** The list `addToCart(product, quantity)` leaves: a product already in the cart has
      its line's quantity raised, a new one is appended as a fresh line. */
  function Added(items: seq<CartItem>, product: Product, quantity: int): (r: seq<CartItem>)
    ensures HasId(items, product.id) ==>
      |r| == |items| &&
      forall i :: 0 <= i < |r| ==>
        r[i].product == items[i].product &&
        r[i].quantity == items[i].quantity + (if items[i].product.id == product.id then quantity else 0)
    ensures !HasId(items, product.id) ==> r == items + [CartItem(product, quantity)]
  {
    if HasId(items, product.id) then QuantityAdded(items, product.id, quantity)
    else items + [CartItem(product, quantity)]
  }

  /** The list `removeFromCart(id)` leaves. */
  function Removed(items: seq<CartItem>, id: string): (r: seq<CartItem>)
    ensures !HasId(r, id)
    ensures forall x :: x in r <==> x in items && x.product.id != id
    ensures forall x :: multiset(r)[x] == if x.product.id != id then multiset(items)[x] else 0
    ensures IsSubsequence(r, items)
  {
    var keep := (x: CartItem) => x.product.id != id;
    var r := Filter(items, keep);
    FilterKeeps(items, keep);
    assert forall k | 0 <= k < |r| :: r[k] in r;
    r
  }

  /** The list a positive `updateQuantity(id, quantity)` leaves. */
  function QuantitySet(items: seq<CartItem>, id: string, quantity: int): (r: seq<CartItem>)
    ensures |r| == |items|
    ensures forall i :: 0 <= i < |r| ==>
      r[i].product == items[i].product &&
      r[i].quantity == (if items[i].product.id == id then quantity else items[i].quantity)
  {
    seq(|items|, i requires 0 <= i < |items| =>
      if items[i].product.id == id then items[i].(quantity := quantity) else items[i])
  }

  lemma {:induction false} NoOccurrences(items: seq<CartItem>, id: string)
    requires !HasId(items, id)
    ensures Occurrences(items, id) == 0
  {
    if items != [] {
      var p := items[..|items| - 1];
      assert !HasId(p, id) by {
        forall i | 0 <= i < |p| ensures p[i].product.id != id { assert p[i] == items[i]; }
      }
      NoOccurrences(p, id);
    }
  }

  /** With unique ids a product in the cart has exactly one line. */
  lemma {:induction false} SingleOccurrence(items: seq<CartItem>, id: string)
    requires UniqueIds(items) && HasId(items, id)
    ensures Occurrences(items, id) == 1
  {
    var n := |items|;
    var p := items[..n - 1];
    assert UniqueIds(p);
    if items[n - 1].product.id == id {
      assert !HasId(p, id) by {
        forall i | 0 <= i < |p| ensures p[i].product.id != id { assert p[i] == items[i]; }
      }
      NoOccurrences(p, id);
    } else {
      var k :| 0 <= k < n && items[k].product.id == id;
      assert k < n - 1 && p[k] == items[k];
      SingleOccurrence(p, id);
    }
  }

  /** Raising the quantity of every line with the id by `delta` raises the item count
      by `delta` once per such line. */
  lemma {:induction false} QuantityAddedCount(items: seq<CartItem>, id: string, delta: int)
    ensures ItemCount(QuantityAdded(items, id, delta)) == ItemCount(items) + delta * Occurrences(items, id)
  {
    if items != [] {
      var n := |items|;
      var r := QuantityAdded(items, id, delta);
      assert r[..n - 1] == QuantityAdded(items[..n - 1], id, delta);
      QuantityAddedCount(items[..n - 1], id, delta);
      var o := Occurrences(items[..n - 1], id);
      if items[n - 1].product.id == id {
        assert delta * (o + 1) == delta * o + delta;
      }
    }
  }

  /** `addToCart` keeps one line per product id. */
  lemma AddedKeepsIdsUnique(items: seq<CartItem>, product: Product, quantity: int)
    requires UniqueIds(items)
    ensures UniqueIds(Added(items, product, quantity))
  {
  }

  /** After `addToCart(product, quantity)` the item count has grown by exactly
      `quantity`, whether the product was new or already in the cart. */
  lemma AddedGrowsItemCount(items: seq<CartItem>, product: Product, quantity: int)
    requires UniqueIds(items)
    ensures ItemCount(Added(items, product, quantity)) == ItemCount(items) + quantity
  {
    if HasId(items, product.id) {
      QuantityAddedCount(items, product.id, quantity);
      SingleOccurrence(items, product.id);
    } else {
      var r := items + [CartItem(product, quantity)];
      assert r[..|r| - 1] == items;
    }
  }

  /** A line whose id no other line has can go in front of a list without duplicates. */
  lemma PrependKeepsIdsUnique(x: CartItem, rest: seq<CartItem>)
    requires UniqueIds(rest)
    requires forall y :: y in rest ==> y.product.id != x.product.id
    ensures UniqueIds([x] + rest)
  {
    var r := [x] + rest;
    forall i, j | 0 <= i < j < |r| ensures r[i].product.id != r[j].product.id {
      if i == 0 {
        assert r[j] in rest;
      } else {
        assert r[i] == rest[i - 1] && r[j] == rest[j - 1];
      }
    }
  }

  /** Removing lines never introduces a duplicate id. */
  lemma RemovedKeepsIdsUnique(items: seq<CartItem>, id: string)
    requires UniqueIds(items)
    ensures UniqueIds(Removed(items, id))
  {
    FilterKeepsIdsUnique(items, (x: CartItem) => x.product.id != id);
  }

  lemma {:induction false} FilterKeepsIdsUnique(items: seq<CartItem>, keep: CartItem -> bool)
    requires UniqueIds(items)
    ensures UniqueIds(Filter(items, keep))
  {
    if items != [] {
      var tail := items[1..];
      assert UniqueIds(tail);
      FilterKeepsIdsUnique(tail, keep);
      var rest := Filter(tail, keep);
      if keep(items[0]) {
        assert Filter(items, keep) == [items[0]] + rest;
        forall y | y in rest ensures y.product.id != items[0].product.id {
          var k :| 0 <= k < |tail| && tail[k] == y;
          assert items[k + 1] == y;
        }
        PrependKeepsIdsUnique(items[0], rest);
      } else {
        assert Filter(items, keep) == rest;
      }
    }
  }

  /** Changing quantities leaves the ids, and so their uniqueness, alone. */
  lemma QuantitySetKeepsIdsUnique(items: seq<CartItem>, id: string, quantity: int)
    requires UniqueIds(items)
    ensures UniqueIds(QuantitySet(items, id, quantity))
  {
  }

  /** The cart store. `items` is the `cartItems` state; `isOpen` is `isCartOpen`. */
  class Cart {
    var items: seq<CartItem>
    var isOpen: bool

    ghost predicate Valid()
      reads this
    {
      UniqueIds(items)
    }

    constructor ()
      ensures Valid() && items == [] && !isOpen
    {
      items := [];
      isOpen := false;
    }

    /** `addToCart(product, quantity = 1)`. */
    method AddToCart(product: Product, quantity: int := 1)
      requires Valid()
      modifies this
      ensures Valid()
      ensures items == Added(old(items), product, quantity) && isOpen == old(isOpen)
      ensures ItemCount(items) == old(ItemCount(items)) + quantity
    {
      AddedKeepsIdsUnique(items, product, quantity);
      AddedGrowsItemCount(items, product, quantity);
      items := Added(items, product, quantity);
    }

    /** `removeFromCart(productId)`. */
    method RemoveFromCart(productId: string)
      requires Valid()
      modifies this
      ensures Valid()
      ensures items == Removed(old(items), productId) && isOpen == old(isOpen)
    {
      RemovedKeepsIdsUnique(items, productId);
      items := Removed(items, productId);
    }

    /** `updateQuantity(productId, quantity)`: a quantity of zero or less removes the
        line, as `removeFromCart` does. */
    method UpdateQuantity(productId: string, quantity: int)
      requires Valid()
      modifies this
      ensures Valid() && isOpen == old(isOpen)
      ensures quantity <= 0 ==> items == Removed(old(items), productId)
      ensures quantity > 0 ==> items == QuantitySet(old(items), productId, quantity)
    {
      if quantity <= 0 {
        RemoveFromCart(productId);
        return;
      }
      QuantitySetKeepsIdsUnique(items, productId, quantity);
      items := QuantitySet(items, productId, quantity);
    }

    /** `clearCart()`. */
    method ClearCart()
      modifies this
      ensures Valid() && isOpen == old(isOpen)
      ensures items == [] && ItemCount(items) == 0 && CartTotal(items) == 0
    {
      items := [];
    }

    /** `toggleCart()`. */
    method ToggleCart()
      modifies this
      ensures isOpen == !old(isOpen) && items == old(items)
    {
      isOpen := !isOpen;
    }

    /** `setIsCartOpen(open)`. */
    method SetCartOpen(open: bool)
      modifies this
      ensures isOpen == open && items == old(items)
    {
      isOpen := open;
    }
  }
}

=== FILE: common.dfy ===
/** Shared vocabulary of the components: optional values, the ASCII string helpers the
    pages use (lower-casing, prefix and substring tests, trimming, number formatting),
    and the list operations they are built from (filter, prepend-and-cap, join, slice). */
module Common {

  /** `T | undefined` (or `T | null`) of the source. */
  datatype Option<T> = None | Some(value: T) {
    /** `x ?? d` and `x || d` for a value whose only falsy form is `undefined`. */
    function GetOr(default: T): T
    {
      match this
      case Some(v) => v
      case None => default
    }
  }

  function Min(a: int, b: int): int { if a <= b then a else b }

  function Max(a: int, b: int): int { if a >= b then a else b }

  // ---------------------------------------------------------------------------
  // Characters and strings

  /** `toLowerCase` on one character; only the ASCII letters are folded. */
  function LowerChar(c: char): char
  {
    if 'A' <= c <= 'Z' then (c as int - 'A' as int + 'a' as int) as char else c
  }

  function ToLower(s: string): (r: string)
    ensures |r| == |s|
  {
    seq(|s|, i requires 0 <= i < |s| => LowerChar(s[i]))
  }

  /** Lower-casing twice is lower-casing once, so a lower-cased search term matches
      the lower-cased text it was typed against. */
  lemma ToLowerIdempotent(s: string)
    ensures ToLower(ToLower(s)) == ToLower(s)
  {
    assert forall i :: 0 <= i < |s| ==> ToLower(ToLower(s))[i] == ToLower(s)[i];
  }

  /** `s.startsWith(prefix)`. */
  predicate StartsWith(s: string, prefix: string)
  {
    |prefix| <= |s| && s[..|prefix|] == prefix
  }

  /** `s.includes(part)`: `part` occurs at some position of `s` (the empty string
      occurs everywhere). */
  predicate Includes(s: string, part: string)
  {
    exists i | 0 <= i <= |s| :: OccursAt(s, part, i)
  }

  predicate OccursAt(s: string, part: string, i: int)
  {
    0 <= i <= |s| - |part| && s[i..i + |part|] == part
  }

  lemma IncludesEmpty(s: string)
    ensures Includes(s, "")
  {
    assert OccursAt(s, "", 0);
  }

  /** The characters `String.prototype.trim` removes that this model knows of:
      the ASCII white space, the no-break space and the byte-order mark. */
  predicate IsWhitespace(c: char)
  {
    c == ' ' || c == '\t' || c == '\n' || c == '\r' || c == '\U{000B}' || c == '\U{000C}'
    || c == '\U{00A0}' || c == '\U{FEFF}'
  }

  function TrimStart(s: string): (r: string)
    ensures |r| <= |s|
    ensures r == s[|s| - |r|..]
    ensures r != [] ==> !IsWhitespace(r[0])
    ensures forall i | 0 <= i < |s| - |r| :: IsWhitespace(s[i])
  {
    if s != [] && IsWhitespace(s[0]) then TrimStart(s[1..]) else s
  }

  function TrimEnd(s: string): (r: string)
    ensures |r| <= |s|
    ensures r == s[..|r|]
    ensures r != [] ==> !IsWhitespace(r[|r| - 1])
    ensures forall i | |r| <= i < |s| :: IsWhitespace(s[i])
  {
    if s != [] && IsWhitespace(s[|s| - 1]) then TrimEnd(s[..|s| - 1]) else s
  }

  /** `s.trim()`. */
  function Trim(s: string): string
  {
    TrimEnd(TrimStart(s))
  }

  /** A string that neither begins nor ends with white space is its own trim. */
  lemma TrimKeeps(s: string)
    requires s != [] && !IsWhitespace(s[0]) && !IsWhitespace(s[|s| - 1])
    ensures Trim(s) == s
  {
  }

  /** Number of occurrences of `c` in `s`. */
  function Count(s: string, c: char): nat
  {
    if s == [] then 0 else (if s[0] == c then 1 else 0) + Count(s[1..], c)
  }

  lemma {:induction false} CountAppend(a: string, b: string, c: char)
    ensures Count(a + b, c) == Count(a, c) + Count(b, c)
  {
    if a != [] {
      assert (a + b)[0] == a[0];
      assert (a + b)[1..] == a[1..] + b;
      CountAppend(a[1..], b, c);
    } else {
      assert a + b == b;
    }
  }

  lemma {:induction false} CountAbsent(s: string, c: char)
    requires c !in s
    ensures Count(s, c) == 0
  {
    if s != [] {
      CountAbsent(s[1..], c);
    }
  }

  // ---------------------------------------------------------------------------
  // Numbers as text

  function DigitChar(d: nat): (c: char)
    requires d < 10
    ensures '0' <= c <= '9' && c as int - '0' as int == d
  {
    ('0' as int + d) as char
  }

  predicate AllDigits(s: string)
  {
    forall i :: 0 <= i < |s| ==> '0' <= s[i] <= '9'
  }

  /** `String(n)` / `${n}` for a non-negative integer: its decimal digits, no sign,
      no leading zeros. */
  function NatToString(n: nat): (r: string)
    ensures |r| >= 1 && AllDigits(r)
    ensures |r| > 1 ==> r[0] != '0'
  {
    if n < 10 then [DigitChar(n)] else NatToString(n / 10) + [DigitChar(n % 10)]
  }

  /** `String(i)` for any integer: a minus sign before the digits of a negative one. */
  function IntToString(i: int): (r: string)
    ensures i < 0 <==> (r != [] && r[0] == '-')
  {
    if i < 0 then "-" + NatToString(-i) else NatToString(i)
  }

  /** Reads a string of decimal digits back as a number. */
  function DigitsValue(s: string): nat
    requires AllDigits(s)
  {
    if s == [] then 0 else 10 * DigitsValue(s[..|s| - 1]) + (s[|s| - 1] as int - '0' as int)
  }

  /** The decimal text of a number reads back as that number. */
  lemma {:induction false} NatToStringRoundTrip(n: nat)
    ensures DigitsValue(NatToString(n)) == n
  {
    if n >= 10 {
      var r := NatToString(n);
      assert r[..|r| - 1] == NatToString(n / 10);
      NatToStringRoundTrip(n / 10);
    }
  }
  /** How many digits a text starts with. */
  function DigitRun(s: string): (k: nat)
    ensures k <= |s| && AllDigits(s[..k])
    ensures k < |s| ==> !('0' <= s[k] <= '9')
  {
    if s != [] && '0' <= s[0] <= '9' then 1 + DigitRun(s[1..]) else 0
  }

  /** The number a text starts with, read in decimal, and the text after it. */
  function ReadNumber(s: string): (nat, string)
  {
    var k := DigitRun(s);
    (DigitsValue(s[..k]), s[k..])
  }

  lemma {:induction false} DigitRunOf(ds: string, rest: string)
    requires AllDigits(ds) && (rest == [] || !('0' <= rest[0] <= '9'))
    ensures DigitRun(ds + rest) == |ds|
  {
    if ds == [] {
      assert ds + rest == rest;
    } else {
      assert (ds + rest)[1..] == ds[1..] + rest;
      DigitRunOf(ds[1..], rest);
    }
  }

  /** A number written in decimal and followed by a non-digit reads back as that
      number, leaving what follows. */
  lemma ReadNumberOf(n: nat, rest: string)
    requires rest == [] || !('0' <= rest[0] <= '9')
    ensures ReadNumber(NatToString(n) + rest) == (n, rest)
  {
    var ds := NatToString(n);
    DigitRunOf(ds, rest);
    assert (ds + rest)[..|ds|] == ds;
    assert (ds + rest)[|ds|..] == rest;
    NatToStringRoundTrip(n);
  }


  // ---------------------------------------------------------------------------
  // Lists

  /** `s.filter(keep)`. */
  function Filter<T(==)>(s: seq<T>, keep: T -> bool): (r: seq<T>)
    ensures |r| <= |s|
    ensures forall x :: x in r ==> x in s && keep(x)
  {
    if s == [] then [] else (if keep(s[0]) then [s[0]] else []) + Filter(s[1..], keep)
  }

  /** `a` is obtained from `b` by deleting elements, keeping the order of the rest. */
  predicate IsSubsequence<T(==)>(a: seq<T>, b: seq<T>)
    decreases |b|
  {
    a == [] || (b != [] && if a[0] == b[0] then IsSubsequence(a[1..], b[1..]) else IsSubsequence(a, b[1..]))
  }

  /** A filter keeps its survivors in their original order. */
  lemma {:induction false} FilterIsSubsequence<T>(s: seq<T>, keep: T -> bool)
    ensures IsSubsequence(Filter(s, keep), s)
  {
    if s != [] {
      FilterIsSubsequence(s[1..], keep);
      if keep(s[0]) {
        assert Filter(s, keep) == [s[0]] + Filter(s[1..], keep);
        assert Filter(s, keep)[1..] == Filter(s[1..], keep);
      } else {
        var f := Filter(s, keep);
        assert f == Filter(s[1..], keep);
        assert f != [] ==> f[0] in f && keep(f[0]) && f[0] != s[0];
      }
    }
  }

  /** A filter keeps every occurrence of an element it accepts and none of one it
      rejects. */
  lemma {:induction false} FilterMultiplicity<T>(s: seq<T>, keep: T -> bool, x: T)
    ensures multiset(Filter(s, keep))[x] == if keep(x) then multiset(s)[x] else 0
  {
    if s != [] {
      FilterMultiplicity(s[1..], keep, x);
      assert s == [s[0]] + s[1..];
      assert multiset(s) == multiset([s[0]]) + multiset(s[1..]);
      var head := if keep(s[0]) then [s[0]] else [];
      assert multiset(Filter(s, keep)) == multiset(head) + multiset(Filter(s[1..], keep));
    }
  }

  /** What a filter keeps: exactly the elements it accepts, each as often as it occurs,
      in their original order. */
  lemma FilterKeeps<T>(s: seq<T>, keep: T -> bool)
    ensures forall x :: x in Filter(s, keep) <==> x in s && keep(x)
    ensures forall x :: multiset(Filter(s, keep))[x] == if keep(x) then multiset(s)[x] else 0
    ensures IsSubsequence(Filter(s, keep), s)
  {
    forall x ensures multiset(Filter(s, keep))[x] == if keep(x) then multiset(s)[x] else 0 {
      FilterMultiplicity(s, keep, x);
    }
    FilterIsSubsequence(s, keep);
  }

  /** Filters that agree on every element keep the same elements. */
  lemma {:induction false} FilterAgree<T>(s: seq<T>, p: T -> bool, q: T -> bool)
    requires forall x :: x in s ==> p(x) == q(x)
    ensures Filter(s, p) == Filter(s, q)
  {
    if s != [] {
      assert forall x :: x in s[1..] ==> x in s;
      FilterAgree(s[1..], p, q);
    }
  }

  /** A filter that accepts everything changes nothing. */
  lemma {:induction false} FilterAll<T>(s: seq<T>, keep: T -> bool)
    requires forall x :: x in s ==> keep(x)
    ensures Filter(s, keep) == s
  {
    if s != [] {
      assert forall x :: x in s[1..] ==> x in s;
      FilterAll(s[1..], keep);
    }
  }

  /** A filter that rejects everything leaves nothing. */
  lemma {:induction false} FilterNone<T>(s: seq<T>, keep: T -> bool)
    requires forall x :: x in s ==> !keep(x)
    ensures Filter(s, keep) == []
  {
    if s != [] {
      assert forall x :: x in s[1..] ==> x in s;
      FilterNone(s[1..], keep);
    }
  }

  /** Quotient and remainder are the only such pair. */
  lemma DivModUnique(x: int, b: int, q: int, r: int)
    requires b > 0 && 0 <= r < b && x == q * b + r
    ensures x / b == q && x % b == r
  {
    var d := q - x / b;
    assert d * b == x % b - r;
    MulBounds(d, b);
  }

  /** A non-zero multiple of a positive `b` is at least `b` away from zero. */
  lemma MulBounds(d: int, b: int)
    requires b > 0
    ensures d >= 1 ==> d * b >= b
    ensures d <= -1 ==> d * b <= -b
  {
  }

  /** Reducing modulo a multiple of `b` first does not change the remainder modulo `b`. */
  lemma ModOfMultiple(x: nat, b: nat, k: nat)
    requires b > 0 && k > 0
    ensures (x % (k * b)) % b == x % b
  {
    var q := x / (k * b);
    var r := x % (k * b);
    assert x == q * (k * b) + r;
    assert x == (q * k + r / b) * b + r % b;
    DivModUnique(x, b, q * k + r / b, r % b);
  }

  /** `[x, ...s].slice(0, cap)`: the newest entry first, then the previous entries in
      their order, as many as fit under the cap. */
  function PrependCapped<T>(x: T, s: seq<T>, cap: nat): (r: seq<T>)
    requires cap > 0
    ensures |r| == Min(|s| + 1, cap) && |r| <= cap
    ensures r[0] == x && r[1..] == s[..|r| - 1]
  {
    ([x] + s)[..Min(|s| + 1, cap)]
  }

  /** Where the JavaScript `s.slice(0, end)` stops: an absent end is the length, a
      negative one counts back from the length, a large one is clipped. */
  function SliceEnd(length: nat, end: Option<int>): (k: nat)
    ensures k <= length
    ensures end.None? ==> k == length
    ensures end.Some? && end.value >= length ==> k == length
    ensures end.Some? && 0 <= end.value <= length ==> k == end.value
  {
    match end
    case None => length
    case Some(e) => if e < 0 then Max(0, length + e) else Min(e, length)
  }

  /** `s.slice(0, end)`. */
  function SliceTo<T>(s: seq<T>, end: Option<int>): seq<T>
  {
    s[..SliceEnd(|s|, end)]
  }

  /** `parts.join(sep)`. */
  function Join(parts: seq<string>, sep: string): string
  {
    if parts == [] then ""
    else if |parts| == 1 then parts[0]
    else parts[0] + sep + Join(parts[1..], sep)
  }

  /** Line-free parts joined with a line-free separator hold no line feed. */
  lemma {:induction false} NoNewlineInJoin(parts: seq<string>, sep: string)
    requires '\n' !in sep
    requires forall i :: 0 <= i < |parts| ==> '\n' !in parts[i]
    ensures '\n' !in Join(parts, sep)
  {
    if |parts| > 1 {
      NoNewlineInJoin(parts[1..], sep);
    }
  }

  /** Joining n line-free parts with CRLF gives exactly n - 1 line feeds, so the text
      has one line per part. */
  lemma {:induction false} JoinLines(parts: seq<string>)
    requires parts != []
    requires forall i :: 0 <= i < |parts| ==> '\n' !in parts[i]
    ensures Count(Join(parts, "\r\n"), '\n') == |parts| - 1
  {
    if |parts| == 1 {
      CountAbsent(parts[0], '\n');
    } else {
      var rest := Join(parts[1..], "\r\n");
      JoinLines(parts[1..]);
      CountAbsent(parts[0], '\n');
      CountAppend(parts[0], "\r\n", '\n');
      CountAppend(parts[0] + "\r\n", rest, '\n');
      assert Count("\r\n", '\n') == 1;
    }
  }
}

=== FILE: local_storage.dfy ===
/** The browser's `localStorage` as the pages use it: a map from key to stored value,
    and the records kept under the keys the account pages and the broadcast page share.
    JSON encoding is left out: a stored value is either already-decoded data or a raw
    string that does not decode as the data the reader expects. */
module LocalStorage {
  import opened Common
  import opened UserContext

  /** The account record the registration form writes under `UsersKey` and the login
      form reads back. `expiryDate` is read by the login form but never written by
      the registration form. */
  datatype StoredUser = StoredUser(
    id: string,
    firstName: string,
    lastName: string,
    email: string,
    whatsappNumber: string,
    companyName: string,
    subscription: string,
    devices: int,
    joinedDate: string,
    avatarUrl: string,
    status: string,
    passwordHash: string,
    expiryDate: Option<int>)

  /** A stored value: a raw string (the admin flag, the empty string, or text that does
      not decode), or a decoded list of accounts or of notifications. */
  datatype StoredValue = Text(raw: string) | UserList(users: seq<StoredUser>) | NoticeList(notices: seq<Notification>)

  const UsersKey := "iot-guardian-users"
  const NotificationsKey := "iot-guardian-userNotifications"
  const AdminFlagKey := "isAdminAuthenticated"

  /** The result of `JSON.parse` on a stored value: the data, or the exception. */
  datatype Decoded<T> = Parsed(value: T) | ParseError

  /** `usersString ? JSON.parse(usersString) : []`: a missing or empty value reads as no
      accounts, an account list as itself, anything else throws. */
  function DecodeUsers(stored: Option<StoredValue>): (r: Decoded<seq<StoredUser>>)
    ensures stored.None? || stored == Some(Text("")) ==> r == Parsed([])
    ensures stored.Some? && stored.value.UserList? ==> r == Parsed(stored.value.users)
    ensures r.Parsed? && r.value != [] ==> stored == Some(UserList(r.value))
    ensures r.ParseError? <==> stored.Some? && !stored.value.UserList? && stored.value != Text("")
  {
    match stored
    case None => Parsed([])
    case Some(Text(raw)) => if raw == "" then Parsed([]) else ParseError
    case Some(UserList(users)) => Parsed(users)
    case Some(NoticeList(_)) => ParseError
  }

  /** The notification list under `NotificationsKey`: a missing, empty or undecodable
      value reads as no notifications (the broadcast page swallows the exception). */
  function DecodeNotices(stored: Option<StoredValue>): (r: seq<Notification>)
    ensures stored.Some? && stored.value.NoticeList? ==> r == stored.value.notices
    ensures (stored.None? || !stored.value.NoticeList?) ==> r == []
    ensures r != [] ==> stored == Some(NoticeList(r))
  {
    match stored
    case Some(NoticeList(notices)) => notices
    case _ => []
  }

  /** The key/value store. */
  class Storage {
    var entries: map<string, StoredValue>

    constructor (initial: map<string, StoredValue>)
      ensures entries == initial
    {
      entries := initial;
    }

    /** `localStorage.getItem(key)`, with `None` for `null`. */
    function GetItem(key: string): (r: Option<StoredValue>)
      reads this
      ensures r.Some? <==> key in entries
      ensures r.Some? ==> r.value == entries[key]
    {
      if key in entries then Some(entries[key]) else None
    }

    /** `localStorage.setItem(key, value)`. */
    method SetItem(key: string, value: StoredValue)
      modifies this
      ensures entries == old(entries)[key := value]
      ensures GetItem(key) == Some(value)
    {
      entries := entries[key := value];
    }

    /** `localStorage.removeItem(key)`. */
    method RemoveItem(key: string)
      modifies this
      ensures entries == old(entries) - {key}
      ensures GetItem(key) == None
    {
      entries := entries - {key};
    }
  }
}

=== FILE: login_form.dfy ===
/** The login form's submit handler: look the e-mail up among the stored accounts, then
    check the password, then the account status, stopping at the first check that
    fails; only an active account with the right password starts a session. */
module LoginForm {
  import opened Common
  import opened UserContext
  import opened LocalStorage

  /** The outcome of one submission, in the order the handler tests for them. */
  datatype LoginOutcome =
    | UserNotFound
    | InvalidCredentials
    | Pending
    | Rejected
    | LoggedIn(session: User)
    | UnknownStatus
    | UnexpectedError

  predicate HasEmail(users: seq<StoredUser>, email: string)
  {
    exists i | 0 <= i < |users| :: users[i].email == email
  }

  /** `users.find(user => user.email === email)`, as an index into `users`. */
  function FindByEmail(users: seq<StoredUser>, email: string): (r: Option<nat>)
    ensures r.None? <==> !HasEmail(users, email)
    ensures r.Some? ==> r.value < |users| && users[r.value].email == email
    ensures r.Some? ==> forall j :: 0 <= j < r.value ==> users[j].email != email
  {
    if users == [] then None
    else if users[0].email == email then Some(0)
    else
      match FindByEmail(users[1..], email)
      case None => None
      case Some(k) => Some(k + 1)
  }

  /** The record handed to `loginUser` for a stored account: the full name from first
      and last name, the plan from the stored subscription, a missing expiry as the
      epoch. */
  function SessionRecord(found: StoredUser): (u: User)
    ensures u.isLoggedIn && u.id == found.id && u.email == found.email
    ensures u.name == found.firstName + " " + found.lastName
    ensures u.subscription.planName == found.subscription
    ensures u.subscription.expiryDate == Some(found.expiryDate.GetOr(0))
  {
    User(found.id, found.firstName + " " + found.lastName, found.firstName, found.lastName,
         found.email, found.whatsappNumber, found.companyName, true,
         Subscription(found.subscription, Some(found.expiryDate.GetOr(0))))
  }

  /** `onSubmit({email, password})` against the value stored under `UsersKey`;
      `LoggedIn` carries the record the session store keeps after `loginUser`. */
  function Login(stored: Option<StoredValue>, email: string, password: string): (r: LoginOutcome)
    ensures DecodeUsers(stored).ParseError? <==> r == UnexpectedError
    ensures r == UserNotFound <==> DecodeUsers(stored).Parsed? && !HasEmail(DecodeUsers(stored).value, email)
    ensures r.LoggedIn? ==>
      var users := DecodeUsers(stored).value;
      exists i | 0 <= i < |users| ::
        users[i].email == email && (forall j :: 0 <= j < i ==> users[j].email != email) &&
        users[i].passwordHash == password && users[i].status == "active" &&
        r.session == Normalized(SessionRecord(users[i]))
    ensures r.LoggedIn? ==> r.session.isLoggedIn
  {
    match DecodeUsers(stored)
    case ParseError => UnexpectedError
    case Parsed(users) =>
      match FindByEmail(users, email)
      case None => UserNotFound
      case Some(k) =>
        var found := users[k];
        if found.passwordHash != password then InvalidCredentials
        else if found.status == "pending" then Pending
        else if found.status == "rejected" then Rejected
        else if found.status == "active" then LoggedIn(Normalized(SessionRecord(found)))
        else UnknownStatus
  }

  /** The first account with the e-mail decides: its password is checked before its
      status, so a pending or rejected account with a wrong password reads as invalid
      credentials, and only an active one with the right password logs in, with that
      account's session. */
  lemma LoginDecidedByFirstMatch(users: seq<StoredUser>, email: string, password: string, k: nat)
    requires k < |users| && users[k].email == email
    requires forall j :: 0 <= j < k ==> users[j].email != email
    ensures var r := Login(Some(UserList(users)), email, password);
      (users[k].passwordHash != password <==> r == InvalidCredentials) &&
      (r.LoggedIn? <==> users[k].passwordHash == password && users[k].status == "active") &&
      (r == Pending <==> users[k].passwordHash == password && users[k].status == "pending") &&
      (r == Rejected <==> users[k].passwordHash == password && users[k].status == "rejected") &&
      (r.LoggedIn? ==> r.session == Normalized(SessionRecord(users[k])))
  {
    assert HasEmail(users, email);
  }

  /** A session started by the login form is already in the form `loginUser` stores
      when the account has a plan name: the session store changes nothing. */
  lemma SessionRecordNormalized(found: StoredUser)
    requires found.subscription != ""
    ensures Normalized(SessionRecord(found)) == SessionRecord(found)
  {
  }
}

=== FILE: manage_issues.dfy ===
/** The admin "manage issues" page: the issue list with delete, save (replace in place
    or append), the case-insensitive search, and the CSV export with its quoted fields
    and the last-week selection. Dates are integer milliseconds; how a date is written
    in the CSV is the date library's business and is passed in. */
module ManageIssues {
  import opened Common

  /** A known issue. `reportedDate` is `None` where the record has none. */
  datatype Issue = Issue(
    id: string,
    title: string,
    description: string,
    imageUrl: string,
    potentialCauses: seq<string>,
    solutions: seq<string>,
    reportedDate: Option<int>)

  /** `Partial<Issue>`, the issue being edited in the dialog. */
  datatype Draft = Draft(
    id: Option<string>,
    title: Option<string>,
    description: Option<string>,
    imageUrl: Option<string>,
    potentialCauses: Option<seq<string>>,
    solutions: Option<seq<string>>,
    reportedDate: Option<int>)

  const DefaultImageUrl := "https://picsum.photos/seed/newissue/80/60"

  const MsPerWeek := 7 * 24 * 60 * 60 * 1000

  /** The dialog's draft for an existing issue. */
  function DraftOf(issue: Issue): (d: Draft)
    ensures d.id == Some(issue.id) && d.title == Some(issue.title)
  {
    Draft(Some(issue.id), Some(issue.title), Some(issue.description), Some(issue.imageUrl),
          Some(issue.potentialCauses), Some(issue.solutions), issue.reportedDate)
  }

  /** `currentIssue as Issue`: the draft taken as a whole issue. */
  function AsIssue(d: Draft): (issue: Issue)
    ensures d.id.Some? ==> issue.id == d.id.value
  {
    Issue(d.id.GetOr(""), d.title.GetOr(""), d.description.GetOr(""), d.imageUrl.GetOr(""),
          d.potentialCauses.GetOr([]), d.solutions.GetOr([]), d.reportedDate)
  }

  /** Editing an issue and saving it unchanged gives the issue back. */
  lemma AsIssueDraftOf(issue: Issue)
    ensures AsIssue(DraftOf(issue)) == issue
  {
  }

  /** `id` holds a non-empty string: the draft edits an existing issue. */
  predicate HasId(d: Draft)
  {
    d.id.Some? && d.id.value != ""
  }

  /** `iss_${now}`, the id an issue added at time `now` gets. */
  function NewIssueId(now: int): string
  {
    "iss_" + IntToString(now)
  }

  /** The issue appended at time `now` for a draft without an id: the new id, no causes or solutions
      where none were given, the default picture for a missing or empty one, and the
      current time for a missing date. */
  function NewIssue(d: Draft, now: int): (issue: Issue)
    ensures issue.id == NewIssueId(now) && issue.reportedDate.Some?
    ensures issue.potentialCauses == d.potentialCauses.GetOr([]) && issue.solutions == d.solutions.GetOr([])
    ensures issue.imageUrl == (if d.imageUrl.Some? && d.imageUrl.value != "" then d.imageUrl.value else DefaultImageUrl)
    ensures issue.reportedDate == (if d.reportedDate.Some? then d.reportedDate else Some(now))
  {
    var base := AsIssue(d);
    base.(id := NewIssueId(now),
          imageUrl := if d.imageUrl.Some? && d.imageUrl.value != "" then d.imageUrl.value else DefaultImageUrl,
          reportedDate := if d.reportedDate.Some? then d.reportedDate else Some(now))
  }

  /** The list `handleDelete(id)` leaves. */
  function Deleted(issues: seq<Issue>, id: string): (r: seq<Issue>)
    ensures forall x :: x in r <==> x in issues && x.id != id
    ensures forall x :: multiset(r)[x] == if x.id != id then multiset(issues)[x] else 0
    ensures IsSubsequence(r, issues)
  {
    var keep := (x: Issue) => x.id != id;
    FilterKeeps(issues, keep);
    Filter(issues, keep)
  }

  /** The list `handleSaveIssue()` leaves for a draft: an edit replaces every issue with
      the draft's id by the draft, in place; a new issue is appended. */
  function Saved(issues: seq<Issue>, d: Draft, now: int): (r: seq<Issue>)
    ensures HasId(d) ==> |r| == |issues|
    ensures HasId(d) ==>
      forall i :: 0 <= i < |r| ==> r[i] == (if issues[i].id == d.id.value then AsIssue(d) else issues[i])
    ensures !HasId(d) ==> r == issues + [NewIssue(d, now)]
  {
    if HasId(d) then
      seq(|issues|, i requires 0 <= i < |issues| => if issues[i].id == d.id.value then AsIssue(d) else issues[i])
    else issues + [NewIssue(d, now)]
  }

  /** An edit saved for an id keeps the set of ids as it was. */
  lemma SavedEditKeepsIds(issues: seq<Issue>, d: Draft, now: int)
    requires HasId(d)
    ensures var r := Saved(issues, d, now);
      forall i :: 0 <= i < |r| ==> r[i].id == issues[i].id
  {
  }

  /** Deleting a freshly added issue by its new id undoes the addition. */
  lemma DeleteUndoesAdd(issues: seq<Issue>, d: Draft, now: int)
    requires !HasId(d)
    requires forall i :: 0 <= i < |issues| ==> issues[i].id != NewIssueId(now)
    ensures Deleted(Saved(issues, d, now), NewIssueId(now)) == issues
  {
    var keep := (x: Issue) => x.id != NewIssueId(now);
    FilterAppendLast(issues, NewIssue(d, now), keep);
    assert forall x :: x in issues ==> keep(x);
    FilterAll(issues, keep);
  }

  /** Filtering `s + [x]` is filtering `s`, then `x` if it is kept. */
  lemma {:induction false} FilterAppendLast<T>(s: seq<T>, x: T, keep: T -> bool)
    ensures Filter(s + [x], keep) == Filter(s, keep) + (if keep(x) then [x] else [])
  {
    if s == [] {
      assert s + [x] == [x];
    } else {
      assert (s + [x])[1..] == s[1..] + [x];
      FilterAppendLast(s[1..], x, keep);
    }
  }

  // ---------------------------------------------------------------------------
  // Search

  /** The search test: the lower-cased term occurs in the lower-cased title or
      description. */
  predicate Matches(issue: Issue, term: string)
  {
    Includes(ToLower(issue.title), ToLower(term)) || Includes(ToLower(issue.description), ToLower(term))
  }

  /** `filteredIssues`. */
  function Filtered(issues: seq<Issue>, term: string): (r: seq<Issue>)
    ensures forall x :: x in r <==> x in issues && Matches(x, term)
    ensures forall x :: multiset(r)[x] == if Matches(x, term) then multiset(issues)[x] else 0
    ensures IsSubsequence(r, issues)
  {
    FilterKeeps(issues, (x: Issue) => Matches(x, term));
    Filter(issues, (x: Issue) => Matches(x, term))
  }

  /** An empty search keeps every issue. */
  lemma FilteredEmptyTerm(issues: seq<Issue>)
    ensures Filtered(issues, "") == issues
  {
    forall x | x in issues ensures Matches(x, "") {
      IncludesEmpty(ToLower(x.title));
    }
    FilterAll(issues, (x: Issue) => Matches(x, ""));
  }

  /** The search ignores the case of the term. */
  lemma FilteredIgnoresTermCase(issues: seq<Issue>, term: string)
    ensures Filtered(issues, ToLower(term)) == Filtered(issues, term)
  {
    ToLowerIdempotent(term);
    FilterAgree(issues, (x: Issue) => Matches(x, ToLower(term)), (x: Issue) => Matches(x, term));
  }

  // ---------------------------------------------------------------------------
  // Search over the records as written

  /** The record `handleSaveIssue()` stores for a draft without an id, as written: the
      draft's own fields over the filled-in ones, so a title or description the dialog
      never set stays missing (`as Issue` checks nothing). Read with the empty-string
      convention it is exactly the model's new issue. */
  function NewRecordAsWritten(d: Draft, now: int): (rec: Draft)
    ensures rec.title == d.title && rec.description == d.description
    ensures AsIssue(rec) == NewIssue(d, now)
  {
    var issue := NewIssue(d, now);
    d.(id := Some(issue.id), imageUrl := Some(issue.imageUrl), potentialCauses := Some(issue.potentialCauses),
       solutions := Some(issue.solutions), reportedDate := issue.reportedDate)
  }

  /** The search test of `filteredIssues` on a stored record, as written; `None` where it
      throws: `toLowerCase()` on a missing title, or on a missing description once the
      title did not match. */
  function RawMatches(rec: Draft, term: string): (m: Option<bool>)
    ensures rec.title.None? ==> m.None?
    ensures rec.title.Some? && Includes(ToLower(rec.title.value), ToLower(term)) ==> m == Some(true)
    ensures rec.title.Some? && rec.description.Some? ==> m == Some(Matches(AsIssue(rec), term))
  {
    if rec.title.None? then None
    else if Includes(ToLower(rec.title.value), ToLower(term)) then Some(true)
    else if rec.description.None? then None
    else Some(Includes(ToLower(rec.description.value), ToLower(term)))
  }

  /** `filteredIssues` over the stored records, as written: `None` when the test throws
      on any of them, which aborts the render. */
  function RawFiltered(recs: seq<Draft>, term: string): (r: Option<seq<Draft>>)
    ensures r.None? <==> exists i :: 0 <= i < |recs| && RawMatches(recs[i], term).None?
  {
    if recs == [] then Some([])
    else
      var rest := RawFiltered(recs[1..], term);
      assert forall i :: 1 <= i < |recs| ==> recs[i] == recs[1..][i - 1];
      match RawMatches(recs[0], term)
      case None => None
      case Some(keep) =>
        if rest.None? then None else Some((if keep then [recs[0]] else []) + rest.value)
  }

  /** Adding an issue through the dialog without typing a title and saving it stores a
      record that makes the search throw on every later render, whatever the term. */
  lemma UntitledIssueBreaksSearch(recs: seq<Draft>, now: int, later: int, term: string)
    ensures var draft := Draft(None, None, None, None, None, None, Some(now));
      RawFiltered(recs + [NewRecordAsWritten(draft, later)], term).None?
  {
    var all := recs + [NewRecordAsWritten(Draft(None, None, None, None, None, None, Some(now)), later)];
    assert RawMatches(all[|recs|], term).None?;
  }

  /** With the missing title read as the empty string, the same issue is searchable: it
      is kept exactly by an empty search, and the search never fails. */
  lemma UntitledIssueSearchable(issues: seq<Issue>, now: int, later: int, term: string)
    ensures var added := NewIssue(Draft(None, None, None, None, None, None, Some(now)), later);
      added in Filtered(Saved(issues, Draft(None, None, None, None, None, None, Some(now)), later), term)
      <==> term == ""
  {
    var draft := Draft(None, None, None, None, None, None, Some(now));
    var added := NewIssue(draft, later);
    assert added.title == "" && added.description == "";
    assert added in Saved(issues, draft, later);
    if term == "" {
      IncludesEmpty("");
    } else {
      assert |ToLower(term)| > 0;
      assert !Includes("", ToLower(term));
    }
  }

  // ---------------------------------------------------------------------------
  // CSV

  /** `s.replace(/"/g, '""')`: every double quote doubled. */
  function EscapeQuotes(s: string): (r: string)
    ensures |r| == |s| + Count(s, '"')
  {
    if s == [] then ""
    else (if s[0] == '"' then "\"\"" else [s[0]]) + EscapeQuotes(s[1..])
  }

  /** A quoted CSV field: the escaped text between double quotes, as section 2, rule 7
      of RFC 4180 lays down. */
  function Quote(s: string): (r: string)
    ensures |r| >= 2 && r[0] == '"' && r[|r| - 1] == '"'
  {
    "\"" + EscapeQuotes(s) + "\""
  }

  /** Reading escaped text back: a doubled quote is one quote, a lone quote is an
      error. */
  function UnescapeQuotes(t: string): Option<string>
  {
    if t == [] then Some("")
    else if t[0] == '"' then
      if |t| >= 2 && t[1] == '"' then
        match UnescapeQuotes(t[2..])
        case Some(rest) => Some("\"" + rest)
        case None => None
      else None
    else
      match UnescapeQuotes(t[1..])
      case Some(rest) => Some([t[0]] + rest)
      case None => None
  }

  /** Reading a quoted field back. */
  function Unquote(q: string): Option<string>
  {
    if |q| >= 2 && q[0] == '"' && q[|q| - 1] == '"' then UnescapeQuotes(q[1..|q| - 1]) else None
  }

  lemma {:induction false} UnescapeEscape(s: string)
    ensures UnescapeQuotes(EscapeQuotes(s)) == Some(s)
  {
    if s != [] {
      UnescapeEscape(s[1..]);
      var e := EscapeQuotes(s);
      if s[0] == '"' {
        assert e[2..] == EscapeQuotes(s[1..]);
      } else {
        assert e[0] == s[0] && e[1..] == EscapeQuotes(s[1..]);
      }
      assert s == [s[0]] + s[1..];
    }
  }

  /** Un-doubling a quoted field gives the original text back. */
  lemma UnquoteQuote(s: string)
    ensures Unquote(Quote(s)) == Some(s)
  {
    var q := Quote(s);
    assert q[1..|q| - 1] == EscapeQuotes(s);
    UnescapeEscape(s);
  }

  const IssueCsvHeader: seq<string> :=
    ["ID", "Title", "Description", "Image URL", "Potential Causes", "Solutions", "Reported Date"]

  /** The seven cells of an issue's row; `formatDate` writes a date as
      'yyyy-MM-dd HH:mm:ss'. */
  function IssueCells(issue: Issue, formatDate: int -> string): (cells: seq<string>)
    ensures |cells| == |IssueCsvHeader|
    ensures cells[0] == issue.id && cells[1] == Quote(issue.title) && cells[2] == Quote(issue.description)
    ensures cells[3] == issue.imageUrl
    ensures cells[4] == Quote(Join(issue.potentialCauses, "; ")) && cells[5] == Quote(Join(issue.solutions, "; "))
    ensures cells[6] == (if issue.reportedDate.Some? then formatDate(issue.reportedDate.value) else "")
  {
    [issue.id, Quote(issue.title), Quote(issue.description), issue.imageUrl,
     Quote(Join(issue.potentialCauses, "; ")), Quote(Join(issue.solutions, "; ")),
     if issue.reportedDate.Some? then formatDate(issue.reportedDate.value) else ""]
  }

  /** An issue's record: its cells joined with commas. */
  function IssueRecord(issue: Issue, formatDate: int -> string): string
  {
    Join(IssueCells(issue, formatDate), ",")
  }

  /** One record per issue, in list order. */
  function IssueRecords(issues: seq<Issue>, formatDate: int -> string): (records: seq<string>)
    ensures |records| == |issues|
    ensures forall i :: 0 <= i < |issues| ==> records[i] == IssueRecord(issues[i], formatDate)
  {
    seq(|issues|, i requires 0 <= i < |issues| => IssueRecord(issues[i], formatDate))
  }

  /** The records of the export: the header, then one per issue, in list order. */
  function IssueCsvLines(issues: seq<Issue>, formatDate: int -> string): (lines: seq<string>)
    ensures |lines| == |issues| + 1
    ensures lines[0] == Join(IssueCsvHeader, ",")
    ensures lines[1..] == IssueRecords(issues, formatDate)
  {
    [Join(IssueCsvHeader, ",")] + IssueRecords(issues, formatDate)
  }

  /** `exportToCSV(issues)`: the records joined with CRLF. */
  function IssueCsv(issues: seq<Issue>, formatDate: int -> string): string
  {
    Join(IssueCsvLines(issues, formatDate), "\r\n")
  }

  /** No text of the issue, and not its written date, holds a line feed. */
  predicate LineFree(issue: Issue, formatDate: int -> string)
  {
    '\n' !in issue.id && '\n' !in issue.title && '\n' !in issue.description && '\n' !in issue.imageUrl &&
    (forall j :: 0 <= j < |issue.potentialCauses| ==> '\n' !in issue.potentialCauses[j]) &&
    (forall j :: 0 <= j < |issue.solutions| ==> '\n' !in issue.solutions[j]) &&
    (issue.reportedDate.Some? ==> '\n' !in formatDate(issue.reportedDate.value))
  }

  /** Doubling quotes adds no line feed. */
  lemma {:induction false} EscapeQuotesLineFree(s: string)
    requires '\n' !in s
    ensures '\n' !in EscapeQuotes(s)
  {
    if s != [] {
      assert '\n' !in s[1..] by {
        forall k | 0 <= k < |s| - 1 ensures s[1..][k] != '\n' { assert s[1..][k] == s[k + 1]; }
      }
      EscapeQuotesLineFree(s[1..]);
    }
  }

  lemma QuoteLineFree(s: string)
    requires '\n' !in s
    ensures '\n' !in Quote(s)
  {
    EscapeQuotesLineFree(s);
  }

  lemma IssueCellsLineFree(issue: Issue, formatDate: int -> string)
    requires LineFree(issue, formatDate)
    ensures '\n' !in IssueRecord(issue, formatDate)
  {
    var cells := IssueCells(issue, formatDate);
    QuoteLineFree(issue.title);
    QuoteLineFree(issue.description);
    NoNewlineInJoin(issue.potentialCauses, "; ");
    QuoteLineFree(Join(issue.potentialCauses, "; "));
    NoNewlineInJoin(issue.solutions, "; ");
    QuoteLineFree(Join(issue.solutions, "; "));
    assert forall j :: 0 <= j < |cells| ==> '\n' !in cells[j];
    NoNewlineInJoin(cells, ",");
  }

  lemma IssueCsvHeaderLineFree()
    ensures '\n' !in Join(IssueCsvHeader, ",")
  {
    forall i | 0 <= i < |IssueCsvHeader| ensures '\n' !in IssueCsvHeader[i] {
    }
    NoNewlineInJoin(IssueCsvHeader, ",");
  }

  /** When no issue's texts or written date hold a line feed, the export has exactly one
      line for the header and one per issue. */
  lemma IssueCsvLineCount(issues: seq<Issue>, formatDate: int -> string)
    requires forall i :: 0 <= i < |issues| ==> LineFree(issues[i], formatDate)
    ensures Count(IssueCsv(issues, formatDate), '\n') == |issues|
  {
    var lines := IssueCsvLines(issues, formatDate);
    forall i | 0 <= i < |lines| ensures '\n' !in lines[i] {
      if i == 0 {
        IssueCsvHeaderLineFree();
      } else {
        IssueCellsLineFree(issues[i - 1], formatDate);
        assert lines[i] == lines[1..][i - 1] == IssueRecord(issues[i - 1], formatDate);
      }
    }
    JoinLines(lines);
  }

  /** `handleExportWeekly()` at time `now`: the issues reported no earlier than a week
      ago, in list order. */
  function WeeklyIssues(issues: seq<Issue>, now: int): (r: seq<Issue>)
    ensures forall x :: x in r <==> x in issues && x.reportedDate.Some? && x.reportedDate.value >= now - MsPerWeek
    ensures forall x :: multiset(r)[x] ==
                        if x.reportedDate.Some? && x.reportedDate.value >= now - MsPerWeek then multiset(issues)[x] else 0
    ensures IsSubsequence(r, issues)
  {
    var recent := (x: Issue) => x.reportedDate.Some? && x.reportedDate.value >= now - MsPerWeek;
    FilterKeeps(issues, recent);
    Filter(issues, recent)
  }

  // ---------------------------------------------------------------------------
  // The page

  class IssueTable {
    var issues: seq<Issue>
    var isModalOpen: bool
    var currentIssue: Option<Draft>

    constructor (initial: seq<Issue>)
      ensures issues == initial && !isModalOpen && currentIssue.None?
    {
      issues := initial;
      isModalOpen := false;
      currentIssue := None;
    }

    /** `handleAddNew()`: an empty draft dated now. */
    method AddNew(now: int)
      modifies this
      ensures currentIssue == Some(Draft(None, None, None, None, None, None, Some(now)))
      ensures isModalOpen && issues == old(issues)
    {
      currentIssue := Some(Draft(None, None, None, None, None, None, Some(now)));
      isModalOpen := true;
    }

    /** `handleEdit(issue)`. */
    method Edit(issue: Issue)
      modifies this
      ensures currentIssue == Some(DraftOf(issue)) && isModalOpen && issues == old(issues)
    {
      currentIssue := Some(DraftOf(issue));
      isModalOpen := true;
    }

    /** `handleDelete(issueId)`. */
    method Delete(issueId: string)
      modifies this
      ensures issues == Deleted(old(issues), issueId)
      ensures isModalOpen == old(isModalOpen) && currentIssue == old(currentIssue)
    {
      issues := Deleted(issues, issueId);
    }

    /** `handleSaveIssue()`: the draft, if any, is saved; the dialog closes and the
        draft is dropped either way. */
    method SaveIssue(now: int)
      modifies this
      ensures old(currentIssue).Some? ==> issues == Saved(old(issues), old(currentIssue).value, now)
      ensures old(currentIssue).None? ==> issues == old(issues)
      ensures !isModalOpen && currentIssue.None?
    {
      if currentIssue.Some? {
        issues := Saved(issues, currentIssue.value, now);
      }
      isModalOpen := false;
      currentIssue := None;
    }
  }
}

=== FILE: realtime_data_grid.dfy ===
/** The dashboard's live sensor grid: the status rule for a reading, the readings it
    shows (at most the plan's device limit and at most ten), the auto-shutdown alerts
    it raises, the device-command update, the CSV export, and how many placeholder
    cards it draws. The plan's feature flags are a parameter. */
module RealtimeDataGrid {
  import opened Common
  import opened SensorDataRoute

  datatype Status = Ok | Warning | Danger | Offline

  datatype DeviceState = On | Off

  /** A sensor card (`SensorData` of the card component). */
  datatype DisplaySensor = DisplaySensor(
    id: string,
    name: string,
    temperature: Option<int>,
    humidity: Option<int>,
    waterLeak: Option<bool>,
    status: Status,
    lastUpdated: string,
    deviceState: DeviceState)

  /** The plan features the grid reads from `currentUser.subscription`. */
  datatype PlanFeatures = PlanFeatures(
    maxDevices: Option<int>,
    hasAutoShutdownFeature: bool,
    canControlDevice: bool,
    canExportCsv: bool)

  /** What every session record carries: the subscription objects the session store
      builds hold only a plan name and an expiry date, so no feature is set. */
  const SessionFeatures := PlanFeatures(None, false, false, false)

  const MaxDevicesToDisplay := 10

  // ---------------------------------------------------------------------------
  // Status

  predicate Leaking(d: SensorReading) { d.waterLeak == Some(true) }

  predicate TemperatureOutOfRange(d: SensorReading)
  {
    d.temperature.Some? && (d.temperature.value > 35 || d.temperature.value < 5)
  }

  predicate HumidityOutOfRange(d: SensorReading)
  {
    d.humidity.Some? && (d.humidity.value > 80 || d.humidity.value < 20)
  }

  /** `deriveStatus`: a leak is a danger whatever else holds; otherwise a temperature
      above 35 or below 5, or a humidity above 80 or below 20, is a warning; anything
      else is fine. A reading is never classified offline. */
  function DeriveStatus(d: SensorReading): (s: Status)
    ensures s == Danger <==> Leaking(d)
    ensures s == Warning <==> !Leaking(d) && (TemperatureOutOfRange(d) || HumidityOutOfRange(d))
    ensures s == Ok <==> !Leaking(d) && !TemperatureOutOfRange(d) && !HumidityOutOfRange(d)
    ensures s != Offline
  {
    if d.waterLeak == Some(true) then Danger
    else if d.temperature.Some? && d.temperature.value > 35 then Warning
    else if d.temperature.Some? && d.temperature.value < 5 then Warning
    else if d.humidity.Some? && (d.humidity.value > 80 || d.humidity.value < 20) then Warning
    else Ok
  }

  // ---------------------------------------------------------------------------
  // Fetching

  /** The card for one fetched reading; `formatTime` is the locale time formatting. */
  function ToDisplay(d: SensorReading, formatTime: string -> string): (c: DisplaySensor)
    ensures c.id == d.deviceId && c.name == d.deviceId
    ensures c.temperature == d.temperature && c.humidity == d.humidity && c.waterLeak == d.waterLeak
    ensures c.status == DeriveStatus(d) && c.deviceState == On
    ensures d.timestamp.None? || d.timestamp == Some("") ==> c.lastUpdated == "N/A"
  {
    DisplaySensor(d.deviceId, d.deviceId, d.temperature, d.humidity, d.waterLeak, DeriveStatus(d),
                  if d.timestamp.Some? && d.timestamp.value != "" then formatTime(d.timestamp.value) else "N/A",
                  On)
  }

  /** The cards `fetchData` shows: the readings up to the plan's limit (JavaScript's
      `slice(0, maxDevices)`), turned into cards, then the first ten. */
  function Displayed(data: seq<SensorReading>, maxDevices: Option<int>, formatTime: string -> string): (r: seq<DisplaySensor>)
    ensures |r| == Min(SliceEnd(|data|, maxDevices), MaxDevicesToDisplay)
    ensures forall i :: 0 <= i < |r| ==> r[i] == ToDisplay(data[i], formatTime)
  {
    var processed := SliceTo(data, maxDevices);
    var cards := seq(|processed|, i requires 0 <= i < |processed| => ToDisplay(processed[i], formatTime));
    cards[..Min(|cards|, MaxDevicesToDisplay)]
  }

  /** With a non-negative device limit the grid shows the first min(limit, 10) readings,
      or all of them when there are fewer. */
  lemma DisplayedCount(data: seq<SensorReading>, m: nat, formatTime: string -> string)
    ensures |Displayed(data, Some(m), formatTime)| == Min(Min(m, |data|), MaxDevicesToDisplay)
    ensures |Displayed(data, Some(m), formatTime)| <= MaxDevicesToDisplay
  {
  }

  /** The degree sign of the alert text as the source file spells it. */
  const DegreeSign: string := ['\U{00C2}', '\U{00B0}']

  /** The alert text for a leak on a device. */
  function LeakAlert(deviceId: string): string
  {
    "CRITICAL: Water leak detected on " + deviceId + "! Auto-shutdown sequence initiated (simulated)."
  }

  /** The alert text for a temperature `t` on a device. */
  function HeatAlert(deviceId: string, t: int): string
  {
    "CRITICAL: High temperature (" + IntToString(t) + DegreeSign + "C) on " + deviceId
      + "! Auto-shutdown sequence initiated (simulated)."
  }

  /** A reading that starts the shutdown sequence: a leak, or a temperature above 40. */
  predicate TriggersShutdown(d: SensorReading)
  {
    Leaking(d) || (d.temperature.Some? && d.temperature.value > 40)
  }

  /** The auto-shutdown alert for one processed reading, if any: the leak alert for a
      leak, else the temperature alert for a temperature above 40. */
  function ShutdownNotice(d: SensorReading): (n: Option<string>)
    ensures n.Some? <==> TriggersShutdown(d)
    ensures Leaking(d) ==> n == Some(LeakAlert(d.deviceId))
    ensures !Leaking(d) && d.temperature.Some? && d.temperature.value > 40 ==>
      n == Some(HeatAlert(d.deviceId, d.temperature.value))
  {
    if d.waterLeak == Some(true) then Some(LeakAlert(d.deviceId))
    else if d.temperature.Some? && d.temperature.value != 0 && d.temperature.value > 40 then
      Some(HeatAlert(d.deviceId, d.temperature.value))
    else None
  }

  /** The two alerts can be told apart: no temperature alert reads as a leak alert. */
  lemma AlertsDiffer(leakId: string, heatId: string, t: int)
    ensures LeakAlert(leakId) != HeatAlert(heatId, t)
  {
    assert LeakAlert(leakId)[10] == 'W';
    assert HeatAlert(heatId, t)[10] == 'H';
  }

  /** The alerts `fetchData` passes to `addNotification` (as 'warning'), in reading
      order: only with the auto-shutdown feature, at most one per processed reading. */
  function ShutdownNotices(processed: seq<SensorReading>, autoShutdown: bool): (ns: seq<string>)
    ensures |ns| <= |processed|
    ensures !autoShutdown ==> ns == []
  {
    if !autoShutdown || processed == [] then []
    else
      var rest := ShutdownNotices(processed[1..], autoShutdown);
      match ShutdownNotice(processed[0])
      case Some(n) => [n] + rest
      case None => rest
  }

  /** With the feature, the alerts are exactly those of the triggering readings: one per
      triggering reading, in reading order, the k-th being the alert of the k-th. */
  lemma {:induction false} ShutdownNoticesAreFiltered(processed: seq<SensorReading>)
    ensures var ns := ShutdownNotices(processed, true);
      var triggering := Filter(processed, TriggersShutdown);
      |ns| == |triggering| &&
      forall k :: 0 <= k < |ns| ==> ns[k] == ShutdownNotice(triggering[k]).value
  {
    if processed != [] {
      ShutdownNoticesAreFiltered(processed[1..]);
      var rest := ShutdownNotices(processed[1..], true);
      var tail := Filter(processed[1..], TriggersShutdown);
      if TriggersShutdown(processed[0]) {
        assert ShutdownNotices(processed, true) == [ShutdownNotice(processed[0]).value] + rest;
        assert Filter(processed, TriggersShutdown) == [processed[0]] + tail;
      } else {
        assert ShutdownNotices(processed, true) == rest;
        assert Filter(processed, TriggersShutdown) == tail;
      }
    }
  }

  /** Every leaking processed device raises an alert; with no leak and no reading above
      40 degrees there are none. */
  lemma {:induction false} ShutdownNoticesCount(processed: seq<SensorReading>)
    ensures (forall i :: 0 <= i < |processed| ==> Leaking(processed[i])) ==>
      |ShutdownNotices(processed, true)| == |processed|
    ensures (forall i :: 0 <= i < |processed| ==> ShutdownNotice(processed[i]).None?) ==>
      ShutdownNotices(processed, true) == []
  {
    if processed != [] {
      ShutdownNoticesCount(processed[1..]);
      assert forall i :: 0 <= i < |processed| - 1 ==> processed[1..][i] == processed[i + 1];
    }
  }

  /** The outcome of `fetch('/api/sensor-data')`. */
  datatype FetchResult = Fetched(data: seq<SensorReading>) | FetchFailed(message: string)

  // ---------------------------------------------------------------------------
  // Commands

  /** The list `handleSendCommand` leaves: the card with the id takes the command as its
      device state; nothing else changes. */
  function WithDeviceState(sensors: seq<DisplaySensor>, deviceId: string, command: DeviceState): (r: seq<DisplaySensor>)
    ensures |r| == |sensors|
    ensures forall i :: 0 <= i < |r| ==>
      r[i].(deviceState := sensors[i].deviceState) == sensors[i] &&
      r[i].deviceState == (if sensors[i].id == deviceId then command else sensors[i].deviceState)
  {
    seq(|sensors|, i requires 0 <= i < |sensors| =>
      if sensors[i].id == deviceId then sensors[i].(deviceState := command) else sensors[i])
  }

  /** Sending the same command twice is sending it once. */
  lemma WithDeviceStateIdempotent(sensors: seq<DisplaySensor>, deviceId: string, command: DeviceState)
    ensures WithDeviceState(WithDeviceState(sensors, deviceId, command), deviceId, command)
         == WithDeviceState(sensors, deviceId, command)
  {
  }

  // ---------------------------------------------------------------------------
  // CSV export

  const CsvHeader: seq<string> :=
    ["Device ID", "Name", "Temperature (C)", "Humidity (%)", "Water Leak", "Status", "Last Updated"]

  function StatusText(s: Status): string
  {
    match s
    case Ok => "ok"
    case Warning => "warning"
    case Danger => "danger"
    case Offline => "offline"
  }

  function NumberOrNA(n: Option<int>): string
  {
    if n.Some? then IntToString(n.value) else "N/A"
  }

  /** The seven cells of a sensor's row. */
  function CsvCells(s: DisplaySensor): (cells: seq<string>)
    ensures |cells| == |CsvHeader|
    ensures cells[0] == s.id && cells[1] == s.name
    ensures cells[2] == (if s.temperature.Some? then IntToString(s.temperature.value) else "N/A")
    ensures cells[3] == (if s.humidity.Some? then IntToString(s.humidity.value) else "N/A")
    ensures cells[4] == (if s.waterLeak == Some(true) then "Detected" else "None")
    ensures cells[5] == StatusText(s.status) && cells[6] == s.lastUpdated
  {
    [s.id, s.name, NumberOrNA(s.temperature), NumberOrNA(s.humidity),
     if s.waterLeak == Some(true) then "Detected" else "None", StatusText(s.status), s.lastUpdated]
  }

  /** A card's line: its cells joined with commas. */
  function CsvRecord(s: DisplaySensor): string
  {
    Join(CsvCells(s), ",")
  }

  /** One line per card, in order. */
  function CsvRecords(sensors: seq<DisplaySensor>): (records: seq<string>)
    ensures |records| == |sensors|
    ensures forall i :: 0 <= i < |sensors| ==> records[i] == CsvRecord(sensors[i])
  {
    seq(|sensors|, i requires 0 <= i < |sensors| => CsvRecord(sensors[i]))
  }

  /** The lines of the export: the header, then one line per card. */
  function CsvLines(sensors: seq<DisplaySensor>): (lines: seq<string>)
    ensures |lines| == |sensors| + 1
    ensures lines[0] == Join(CsvHeader, ",")
    ensures lines[1..] == CsvRecords(sensors)
  {
    [Join(CsvHeader, ",")] + CsvRecords(sensors)
  }

  /** `downloadCSV()`: nothing without the export feature or without cards; otherwise the
      lines joined with CRLF. */
  function SensorCsv(sensors: seq<DisplaySensor>, canExportCsv: bool): (csv: Option<string>)
    ensures csv.Some? <==> canExportCsv && sensors != []
    ensures csv.Some? ==> csv.value == Join(CsvLines(sensors), "\r\n")
  {
    if !canExportCsv || sensors == [] then None else Some(Join(CsvLines(sensors), "\r\n"))
  }

  lemma NumberOrNAHasNoNewline(n: Option<int>)
    ensures '\n' !in NumberOrNA(n)
  {
    if n.Some? && n.value < 0 {
      assert NumberOrNA(n) == "-" + NatToString(-n.value);
    }
  }

  lemma CsvCellsHaveNoNewline(s: DisplaySensor)
    requires '\n' !in s.id && '\n' !in s.name && '\n' !in s.lastUpdated
    ensures forall j :: 0 <= j < |CsvCells(s)| ==> '\n' !in CsvCells(s)[j]
  {
    assert '\n' !in StatusText(s.status);
    NumberOrNAHasNoNewline(s.temperature);
    NumberOrNAHasNoNewline(s.humidity);
  }

  /** The header line holds no line feed. */
  lemma CsvHeaderHasNoNewline()
    ensures '\n' !in Join(CsvHeader, ",")
  {
    forall i | 0 <= i < |CsvHeader| ensures '\n' !in CsvHeader[i] {
    }
    NoNewlineInJoin(CsvHeader, ",");
  }

  /** When no id, name or time text holds a line feed, the export has exactly one line for
      the header and one per card. */
  lemma SensorCsvLineCount(sensors: seq<DisplaySensor>)
    requires sensors != []
    requires forall i :: 0 <= i < |sensors| ==>
      '\n' !in sensors[i].id && '\n' !in sensors[i].name && '\n' !in sensors[i].lastUpdated
    ensures Count(SensorCsv(sensors, true).value, '\n') == |sensors|
  {
    var lines := CsvLines(sensors);
    forall i | 0 <= i < |lines| ensures '\n' !in lines[i] {
      if i == 0 {
        CsvHeaderHasNoNewline();
      } else {
        CsvCellsHaveNoNewline(sensors[i - 1]);
        NoNewlineInJoin(CsvCells(sensors[i - 1]), ",");
        assert lines[i] == lines[1..][i - 1] == CsvRecord(sensors[i - 1]);
      }
    }
    JoinLines(lines);
  }

  // ---------------------------------------------------------------------------
  // Placeholder cards

  /** `Math.min(maxDevices, 4)` skeleton cards while loading, as written: `None` where
      `Array(n)` throws, that is for a negative or missing limit (the minimum is then
      `NaN`). */
  function SkeletonCount(maxDevices: Option<int>): (k: Option<nat>)
    ensures k.Some? <==> maxDevices.Some? && maxDevices.value >= 0
    ensures k.Some? ==> k.value == Min(maxDevices.value, 4)
  {
    match maxDevices
    case None => None
    case Some(m) => if Min(m, 4) < 0 then None else Some(Min(m, 4))
  }

  /** The empty slots drawn after `shown` cards, as written: `None` for a missing limit,
      where `Array(NaN)` throws. */
  function PlaceholderCount(maxDevices: Option<int>, shown: nat): (k: Option<nat>)
    requires shown <= MaxDevicesToDisplay
    ensures k.Some? <==> maxDevices.Some?
  {
    match maxDevices
    case None => None
    case Some(m) => Some(SliceEnd(Max(0, m - shown), Some(MaxDevicesToDisplay - shown)))
  }

  /** The session records the app builds carry no device limit, so a logged-in user's
      grid throws instead of drawing its skeleton or its empty slots. */
  lemma SessionGridThrows(shown: nat)
    requires shown <= MaxDevicesToDisplay
    ensures SkeletonCount(SessionFeatures.maxDevices).None?
    ensures PlaceholderCount(SessionFeatures.maxDevices, shown).None?
  {
  }

  /** The skeleton count with a missing limit read as no limit, as the device slice
      reads it: never more than four, and the limit when that is smaller. */
  function SkeletonSlots(maxDevices: Option<int>): (k: nat)
    ensures k <= 4
    ensures maxDevices.None? ==> k == 4
    ensures maxDevices.Some? && 0 <= maxDevices.value ==> k == Min(maxDevices.value, 4)
  {
    match maxDevices
    case None => 4
    case Some(m) => Max(0, Min(m, 4))
  }

  /** The empty slots with a missing limit read as no limit: cards and slots together
      fill the limit, capped at ten, and never fewer than the cards shown. */
  function PlaceholderSlots(maxDevices: Option<int>, shown: nat): (k: nat)
    requires shown <= MaxDevicesToDisplay
    ensures maxDevices.None? ==> shown + k == MaxDevicesToDisplay
    ensures maxDevices.Some? ==> shown + k == Max(shown, Min(maxDevices.value, MaxDevicesToDisplay))
  {
    match maxDevices
    case None => MaxDevicesToDisplay - shown
    case Some(m) => Max(0, Min(m, MaxDevicesToDisplay) - shown)
  }

  /** Where the source does not throw, the corrected counts are the source's. */
  lemma CorrectedCountsAgree(maxDevices: Option<int>, shown: nat)
    requires shown <= MaxDevicesToDisplay
    ensures SkeletonCount(maxDevices).Some? ==> SkeletonCount(maxDevices).value == SkeletonSlots(maxDevices)
    ensures PlaceholderCount(maxDevices, shown).Some? ==> PlaceholderCount(maxDevices, shown).value == PlaceholderSlots(maxDevices, shown)
  {
  }

  // ---------------------------------------------------------------------------
  // The grid

  class DataGrid {
    var sensors: seq<DisplaySensor>
    var loading: bool
    var error: Option<string>

    constructor ()
      ensures sensors == [] && loading && error.None?
    {
      sensors := [];
      loading := true;
      error := None;
    }

    /** `fetchData()` for the current user with the fetch outcome `result`: no user
        clears the grid; a failed fetch records the message and clears the cards;
        a successful one shows the displayed cards. Returns the alerts raised. */
    method FetchData(loggedIn: bool, features: PlanFeatures, result: FetchResult, formatTime: string -> string)
        returns (notices: seq<string>)
      modifies this
      ensures !loading
      ensures !loggedIn ==> sensors == [] && error.None? && notices == []
      ensures loggedIn && result.FetchFailed? ==> sensors == [] && error == Some(result.message) && notices == []
      ensures loggedIn && result.Fetched? ==>
        error.None? &&
        sensors == Displayed(result.data, features.maxDevices, formatTime) &&
        notices == ShutdownNotices(SliceTo(result.data, features.maxDevices), features.hasAutoShutdownFeature)
      ensures |sensors| <= MaxDevicesToDisplay
    {
      notices := [];
      if !loggedIn {
        sensors := [];
        loading := false;
        error := None;
        return;
      }
      error := None;
      match result {
        case FetchFailed(message) =>
          error := Some(message);
          sensors := [];
        case Fetched(data) =>
          var processed := SliceTo(data, features.maxDevices);
          notices := ShutdownNotices(processed, features.hasAutoShutdownFeature);
          sensors := Displayed(data, features.maxDevices, formatTime);
      }
      loading := false;
    }

    /** `handleSendCommand(deviceId, command)`: without device control, or when the
        command request fails, nothing changes; otherwise the card takes the state. */
    method SendCommand(features: PlanFeatures, deviceId: string, command: DeviceState, delivered: bool)
      modifies this
      ensures features.canControlDevice && delivered ==> sensors == WithDeviceState(old(sensors), deviceId, command)
      ensures !(features.canControlDevice && delivered) ==> sensors == old(sensors)
      ensures loading == old(loading) && error == old(error)
    {
      if !features.canControlDevice {
        return;
      }
      if delivered {
        sensors := WithDeviceState(sensors, deviceId, command);
      }
    }
  }
}

=== FILE: register_form.dfy ===
/** The registration form: the field rules of its schema, and the submit handler that
    refuses an e-mail already on file and otherwise appends a pending account to the
    stored account list. */
module RegisterForm {
  import opened Common
  import opened LocalStorage
  import opened LoginForm
  import AdminUsers

  datatype RegistrationValues = RegistrationValues(
    firstName: string,
    lastName: string,
    email: string,
    whatsappNumber: string,
    companyName: string,
    password: string,
    confirmPassword: string)

  predicate NonZeroDigit(c: char) { '1' <= c <= '9' }

  /** `[1-9]\d{1,14}`: a non-zero digit followed by one to fourteen digits. */
  predicate PhoneDigits(s: string)
  {
    2 <= |s| <= 15 && NonZeroDigit(s[0]) && AllDigits(s)
  }

  /** `^\+?[1-9]\d{1,14}$`: an optional plus sign, then the digits. */
  predicate PhonePattern(s: string)
  {
    PhoneDigits(s) || (|s| > 0 && s[0] == '+' && PhoneDigits(s[1..]))
  }

  /** `whatsappNumber`: at least ten characters and the international pattern. */
  predicate ValidWhatsApp(s: string)
  {
    |s| >= 10 && PhonePattern(s)
  }

  /** An accepted WhatsApp number is ten to sixteen characters long, and all digits
      after an optional leading plus sign. */
  lemma ValidWhatsAppLength(s: string)
    requires ValidWhatsApp(s)
    ensures 10 <= |s| <= 16
    ensures s[0] == '+' ==> AllDigits(s[1..])
    ensures s[0] != '+' ==> AllDigits(s)
  {
  }

  /** `formSchema` with its refinement: names and company of at least two characters,
      passwords of at least six, a WhatsApp number as above, a well-formed e-mail
      (decided by the validation library, so passed in) and matching passwords. */
  predicate SchemaAccepts(v: RegistrationValues, isEmail: string -> bool)
  {
    |v.firstName| >= 2 && |v.lastName| >= 2 && isEmail(v.email) &&
    ValidWhatsApp(v.whatsappNumber) && |v.companyName| >= 2 &&
    |v.password| >= 6 && |v.confirmPassword| >= 6 &&
    v.password == v.confirmPassword
  }

  /** The refinement rejects differing passwords whatever the other fields hold. */
  lemma MismatchedPasswordsRejected(v: RegistrationValues, isEmail: string -> bool)
    requires v.password != v.confirmPassword
    ensures !SchemaAccepts(v, isEmail)
  {
  }

  /** The account appended at time `now` for accepted values: pending approval, no
      plan, no devices, the password kept as typed, no expiry; the id and picture are
      generated from the time as on the users page. */
  function NewAccount(v: RegistrationValues, now: int, joinedDate: string): (u: StoredUser)
    ensures u.status == "pending" && u.subscription == "None" && u.devices == 0
    ensures u.email == v.email && u.passwordHash == v.password && u.expiryDate.None?
    ensures u.firstName == v.firstName && u.lastName == v.lastName
    ensures u.whatsappNumber == v.whatsappNumber && u.companyName == v.companyName && u.joinedDate == joinedDate
    ensures u.id == AdminUsers.NewUserId(now) && u.avatarUrl == AdminUsers.GeneratedAvatar(now)
  {
    StoredUser(AdminUsers.NewUserId(now), v.firstName, v.lastName, v.email, v.whatsappNumber, v.companyName,
               "None", 0, joinedDate, AdminUsers.GeneratedAvatar(now), "pending", v.password, None)
  }

  /** No two stored accounts share an e-mail address. */
  predicate UniqueEmails(users: seq<StoredUser>)
  {
    forall i, j | 0 <= i < j < |users| :: users[i].email != users[j].email
  }

  /** Appending an account whose e-mail is not yet on file keeps e-mails unique. */
  lemma AppendKeepsEmailsUnique(users: seq<StoredUser>, u: StoredUser)
    requires UniqueEmails(users) && !HasEmail(users, u.email)
    ensures UniqueEmails(users + [u])
  {
    var r := users + [u];
    forall i, j | 0 <= i < j < |r| ensures r[i].email != r[j].email {
      if j == |users| {
        assert r[i] == users[i];
      }
    }
  }

  /** A freshly registered account cannot log in yet: logging in with its e-mail and
      password reads as awaiting approval. */
  lemma {:induction false} NewAccountLoginPending(users: seq<StoredUser>, v: RegistrationValues,
                                                  now: int, joinedDate: string)
    requires !HasEmail(users, v.email)
    ensures Login(Some(UserList(users + [NewAccount(v, now, joinedDate)])), v.email, v.password) == Pending
  {
    var r := users + [NewAccount(v, now, joinedDate)];
    LoginDecidedByFirstMatch(r, v.email, v.password, |users|);
  }

  datatype RegisterOutcome = SchemaRejected | EmailTaken | Registered | RegisterFailed

  /** Submitting the form: the schema first, then `onSubmit`. An accepted registration
      replaces the stored list by the old one plus the new account; every other outcome
      leaves the storage as it was. */
  method Register(storage: Storage, v: RegistrationValues, isEmail: string -> bool,
                  now: int, joinedDate: string)
      returns (outcome: RegisterOutcome)
    modifies storage
    ensures outcome == SchemaRejected <==> !SchemaAccepts(v, isEmail)
    ensures outcome == RegisterFailed <==>
      SchemaAccepts(v, isEmail) && old(DecodeUsers(storage.GetItem(UsersKey))).ParseError?
    ensures outcome == EmailTaken <==>
      SchemaAccepts(v, isEmail) && old(DecodeUsers(storage.GetItem(UsersKey))).Parsed? &&
      HasEmail(old(DecodeUsers(storage.GetItem(UsersKey))).value, v.email)
    ensures outcome != Registered ==> storage.entries == old(storage.entries)
    ensures outcome == Registered ==>
      var users := old(DecodeUsers(storage.GetItem(UsersKey))).value;
      storage.entries == old(storage.entries)[UsersKey := UserList(users + [NewAccount(v, now, joinedDate)])]
    ensures outcome == Registered ==>
      (UniqueEmails(old(DecodeUsers(storage.GetItem(UsersKey))).value) ==>
       UniqueEmails(DecodeUsers(storage.GetItem(UsersKey)).value))
  {
    if !SchemaAccepts(v, isEmail) {
      return SchemaRejected;
    }
    match DecodeUsers(storage.GetItem(UsersKey))
    case ParseError =>
      outcome := RegisterFailed;
    case Parsed(users) =>
      if HasEmail(users, v.email) {
        outcome := EmailTaken;
      } else {
        var account := NewAccount(v, now, joinedDate);
        if UniqueEmails(users) {
          AppendKeepsEmailsUnique(users, account);
        }
        storage.SetItem(UsersKey, UserList(users + [account]));
        outcome := Registered;
      }
  }
}

=== FILE: send_notifications.dfy ===
/** The admin broadcast page: a message of 10 to 500 characters becomes an unread admin
    notification for all users, put in front of the stored notification list, which
    keeps the 50 newest entries. */
module SendNotifications {
  import opened Common
  import opened UserContext
  import opened LocalStorage

  const BroadcastCap := 50

  /** The form schema on `message`. */
  predicate ValidMessage(message: string)
  {
    10 <= |message| <= 500
  }

  /** The notification a broadcast creates. */
  function Broadcast(message: string, id: string, now: int): (n: Notification)
    ensures n.message == message && !n.read && n.kind == AdminKind && n.target == Some("all_users")
  {
    Notification(id, message, false, now, AdminKind, Some("all_users"))
  }

  /** The list `onSubmit` stores: the new notification first, then the newest of the
      previously stored ones (none when the stored value is missing or does not
      decode) in their order, at most 50 in all. */
  function Broadcasted(stored: Option<StoredValue>, message: string, id: string, now: int): (r: seq<Notification>)
    ensures var previous := DecodeNotices(stored);
      |r| == Min(|previous| + 1, BroadcastCap) && 1 <= |r| <= BroadcastCap &&
      r[0] == Broadcast(message, id, now) && r[1..] == previous[..|r| - 1]
  {
    PrependCapped(Broadcast(message, id, now), DecodeNotices(stored), BroadcastCap)
  }

  /** Two broadcasts in a row: the later one is first, the earlier one second. */
  lemma TwoBroadcastsNewestFirst(stored: Option<StoredValue>, m1: string, id1: string, t1: int,
                                 m2: string, id2: string, t2: int)
    ensures var once := Broadcasted(stored, m1, id1, t1);
      var twice := Broadcasted(Some(NoticeList(once)), m2, id2, t2);
      |twice| >= 2 && twice[0] == Broadcast(m2, id2, t2) && twice[1] == Broadcast(m1, id1, t1)
  {
    var once := Broadcasted(stored, m1, id1, t1);
    assert DecodeNotices(Some(NoticeList(once))) == once;
  }

  /** A stored value that does not decode is read as an empty list: the broadcast is the
      only entry afterwards. */
  lemma UndecodableReadsEmpty(raw: string, message: string, id: string, now: int)
    ensures Broadcasted(Some(Text(raw)), message, id, now) == [Broadcast(message, id, now)]
  {
  }

  /** Submitting the form: a rejected message changes nothing; an accepted one stores
      the new list under `NotificationsKey` and nothing else changes. */
  method SendNotification(storage: Storage, message: string, id: string, now: int) returns (sent: bool)
    modifies storage
    ensures sent <==> ValidMessage(message)
    ensures !sent ==> storage.entries == old(storage.entries)
    ensures sent ==>
      var updated := Broadcasted(old(storage.GetItem(NotificationsKey)), message, id, now);
      storage.entries == old(storage.entries)[NotificationsKey := NoticeList(updated)]
  {
    if !ValidMessage(message) {
      return false;
    }
    var updated := Broadcasted(storage.GetItem(NotificationsKey), message, id, now);
    storage.SetItem(NotificationsKey, NoticeList(updated));
    sent := true;
  }
}

=== FILE: sensor_data_route.dfy ===
/** The sensor-data endpoint: POST validates a JSON body against the reading schema and
    stores it under its device id, replacing any earlier reading of that device; GET
    lists the stored readings. The store lives in server memory. Numbers are integers;
    whether a string is an ISO 8601 date-time is decided by the validation library and
    so is passed in. */
module SensorDataRoute {
  import opened Common

  /** A decoded JSON value. */
  datatype Json =
    | JNull
    | JBool(b: bool)
    | JNum(n: int)
    | JStr(s: string)
    | JArr(items: seq<Json>)
    | JObj(fields: map<string, Json>)

  /** What `request.json()` gives: a value, a syntax error, or some other failure. */
  datatype Body = Parsed(json: Json) | Malformed | Unreadable

  /** `InputSensorData`, and the stored record, which always has a timestamp. */
  datatype SensorReading = SensorReading(
    deviceId: string,
    temperature: Option<int>,
    humidity: Option<int>,
    waterLeak: Option<bool>,
    timestamp: Option<string>)

  // ---------------------------------------------------------------------------
  // The schema

  /** An optional number field: `Some(None)` when absent, `Some(Some(n))` for a number,
      `None` (a validation failure) for anything else, `null` included. */
  function OptionalNumber(fields: map<string, Json>, key: string): Option<Option<int>>
  {
    if key !in fields then Some(None)
    else match fields[key]
      case JNum(n) => Some(Some(n))
      case _ => None
  }

  function OptionalBool(fields: map<string, Json>, key: string): Option<Option<bool>>
  {
    if key !in fields then Some(None)
    else match fields[key]
      case JBool(b) => Some(Some(b))
      case _ => None
  }

  /** An optional date-time string field. */
  function OptionalDatetime(fields: map<string, Json>, key: string, isDatetime: string -> bool): Option<Option<string>>
  {
    if key !in fields then Some(None)
    else match fields[key]
      case JStr(s) => if isDatetime(s) then Some(Some(s)) else None
      case _ => None
  }

  /** `SensorDataSchema.safeParse(body)`: an object with a string `deviceId` and, when
      present, a number `temperature` and `humidity`, a boolean `waterLeak` and a
      date-time `timestamp`; other keys are dropped. */
  function Validate(body: Json, isDatetime: string -> bool): (r: Option<SensorReading>)
    ensures r.Some? ==> body.JObj? && "deviceId" in body.fields && body.fields["deviceId"] == JStr(r.value.deviceId)
    ensures r.Some? && r.value.timestamp.Some? ==> isDatetime(r.value.timestamp.value)
    ensures !body.JObj? ==> r.None?
  {
    match body
    case JObj(fields) =>
      if "deviceId" in fields && fields["deviceId"].JStr? then
        var temperature := OptionalNumber(fields, "temperature");
        var humidity := OptionalNumber(fields, "humidity");
        var waterLeak := OptionalBool(fields, "waterLeak");
        var timestamp := OptionalDatetime(fields, "timestamp", isDatetime);
        if temperature.Some? && humidity.Some? && waterLeak.Some? && timestamp.Some? then
          Some(SensorReading(fields["deviceId"].s, temperature.value, humidity.value, waterLeak.value, timestamp.value))
        else None
      else None
    case _ => None
  }

  /** The JSON object a device sends for a reading: the present fields only. */
  function Encode(d: SensorReading): (fields: map<string, Json>)
    ensures "deviceId" in fields
    ensures forall k :: k in fields ==> k in SchemaKeys
  {
    map["deviceId" := JStr(d.deviceId)]
    + (if d.temperature.Some? then map["temperature" := JNum(d.temperature.value)] else map[])
    + (if d.humidity.Some? then map["humidity" := JNum(d.humidity.value)] else map[])
    + (if d.waterLeak.Some? then map["waterLeak" := JBool(d.waterLeak.value)] else map[])
    + (if d.timestamp.Some? then map["timestamp" := JStr(d.timestamp.value)] else map[])
  }

  const SchemaKeys: set<string> := {"deviceId", "temperature", "humidity", "waterLeak", "timestamp"}

  /** A reading sent as JSON validates back to itself, provided its timestamp (if any)
      is a date-time. */
  lemma ValidateEncode(d: SensorReading, isDatetime: string -> bool)
    requires d.timestamp.Some? ==> isDatetime(d.timestamp.value)
    ensures Validate(JObj(Encode(d)), isDatetime) == Some(d)
  {
    var fields := Encode(d);
    assert fields["deviceId"] == JStr(d.deviceId);
  }

  /** Keys outside the schema do not change the outcome of validation. */
  lemma ValidateIgnoresExtraKeys(fields: map<string, Json>, extra: map<string, Json>, isDatetime: string -> bool)
    requires forall k :: k in extra ==> k !in SchemaKeys
    ensures Validate(JObj(fields + extra), isDatetime) == Validate(JObj(fields - extra.Keys), isDatetime)
  {
    var a := fields + extra;
    var b := fields - extra.Keys;
    forall k | k in SchemaKeys ensures (k in a <==> k in b) && (k in a ==> a[k] == b[k]) {
      assert k !in extra;
    }
  }

  /** The schema's fields of an accepted body are exactly the accepted reading, sent
      back as JSON: a present field of the wrong type is never accepted. With
      `ValidateEncode` and `ValidateIgnoresExtraKeys` this makes the schema an
      if-and-only-if. */
  lemma ValidatedIsEncoded(body: Json, isDatetime: string -> bool)
    ensures var r := Validate(body, isDatetime);
      r.Some? ==> (map k | k in body.fields && k in SchemaKeys :: body.fields[k]) == Encode(r.value)
  {
    var r := Validate(body, isDatetime);
    if r.Some? {
      ValidatedFields(body.fields, isDatetime);
      EncodeFields(r.value);
      SameSchemaFields(body.fields, r.value, Encode(r.value));
    }
  }

  /** The object `f` holds the fields of reading `d`: the device id always, and each
      optional field exactly when the reading has it, with its value. */
  predicate Carries(f: map<string, Json>, d: SensorReading)
  {
    "deviceId" in f && f["deviceId"] == JStr(d.deviceId) &&
    ("temperature" in f <==> d.temperature.Some?) &&
    (d.temperature.Some? ==> f["temperature"] == JNum(d.temperature.value)) &&
    ("humidity" in f <==> d.humidity.Some?) &&
    (d.humidity.Some? ==> f["humidity"] == JNum(d.humidity.value)) &&
    ("waterLeak" in f <==> d.waterLeak.Some?) &&
    (d.waterLeak.Some? ==> f["waterLeak"] == JBool(d.waterLeak.value)) &&
    ("timestamp" in f <==> d.timestamp.Some?) &&
    (d.timestamp.Some? ==> f["timestamp"] == JStr(d.timestamp.value))
  }

  /** An accepted object carries the accepted reading. */
  lemma ValidatedFields(fields: map<string, Json>, isDatetime: string -> bool)
    ensures var r := Validate(JObj(fields), isDatetime);
      r.Some? ==> Carries(fields, r.value)
  {
  }

  /** A reading's JSON object carries the reading. */
  lemma EncodeFields(d: SensorReading)
    ensures Carries(Encode(d), d)
  {
  }

  /** Two objects carrying the same reading agree on the schema keys. */
  lemma SameSchemaFields(fields: map<string, Json>, d: SensorReading, e: map<string, Json>)
    requires Carries(fields, d) && Carries(e, d) && e.Keys <= SchemaKeys
    ensures (map k | k in fields && k in SchemaKeys :: fields[k]) == e
  {
    var m := map k | k in fields && k in SchemaKeys :: fields[k];
    assert m.Keys == e.Keys;
  }

  /** A field of the schema that is present with the wrong type: a non-number
      `temperature` or `humidity`, a non-boolean `waterLeak`, a non-string `deviceId` or
      `timestamp`. */
  predicate WronglyTyped(fields: map<string, Json>, key: string)
  {
    key in fields &&
    (key == "deviceId" || key == "timestamp" ==> !fields[key].JStr?) &&
    (key == "temperature" || key == "humidity" ==> !fields[key].JNum?) &&
    (key == "waterLeak" ==> !fields[key].JBool?)
  }

  /** A body with a wrongly typed schema field is rejected. */
  lemma WronglyTypedRejected(fields: map<string, Json>, key: string, isDatetime: string -> bool)
    requires key in SchemaKeys && WronglyTyped(fields, key)
    ensures Validate(JObj(fields), isDatetime).None?
  {
  }

  /** `null` is not an absent value: a reading with a `null` field is rejected. */
  lemma NullFieldRejected(fields: map<string, Json>, key: string, isDatetime: string -> bool)
    requires key in SchemaKeys && key in fields && fields[key] == JNull
    ensures Validate(JObj(fields), isDatetime).None?
  {
  }

  // ---------------------------------------------------------------------------
  // The store

  /** The response of POST: 201 with the validated input, or an error. */
  datatype Response = Created(data: SensorReading) | InvalidData | InvalidJson | InternalError

  function Status(r: Response): int
  {
    match r
    case Created(_) => 201
    case InvalidData => 400
    case InvalidJson => 400
    case InternalError => 500
  }

  /** The record stored for a validated reading: the device's own timestamp when it
      sent one, else the server time. */
  function Stamped(d: SensorReading, nowIso: string): (s: SensorReading)
    ensures s.timestamp.Some?
    ensures d.timestamp.Some? && d.timestamp.value != "" ==> s == d
    ensures s.(timestamp := d.timestamp) == d
    ensures d.timestamp.None? ==> s.timestamp == Some(nowIso)
  {
    var timestamp := if d.timestamp.Some? && d.timestamp.value != "" then d.timestamp.value else nowIso;
    d.(timestamp := Some(timestamp))
  }

  /** The content of `sensorDataStore`: the records by device id, and the device ids in
      the order they were first stored, which is the order `Object.values` lists them
      in. */
  datatype StoreState = StoreState(records: map<string, SensorReading>, order: seq<string>)

  /** Every device id is listed once, and each record is filed under its own id. */
  predicate Consistent(s: StoreState)
  {
    (forall i, j | 0 <= i < j < |s.order| :: s.order[i] != s.order[j]) &&
    (forall k | k in s.records :: k in s.order) &&
    (forall i | 0 <= i < |s.order| :: s.order[i] in s.records) &&
    (forall k | k in s.records :: s.records[k].deviceId == k)
  }

  /** `sensorDataStore[d.deviceId] = d`. */
  function Upsert(s: StoreState, d: SensorReading): (r: StoreState)
    requires Consistent(s)
    ensures Consistent(r)
    ensures r.records == s.records[d.deviceId := d]
    ensures d.deviceId in s.records ==> r.order == s.order
    ensures d.deviceId !in s.records ==> r.order == s.order + [d.deviceId]
  {
    var order := if d.deviceId in s.records then s.order else s.order + [d.deviceId];
    StoreState(s.records[d.deviceId := d], order)
  }

  /** Two POSTs for the same device leave the store as the later one alone would. */
  lemma UpsertTwice(s: StoreState, a: SensorReading, b: SensorReading)
    requires Consistent(s) && a.deviceId == b.deviceId
    ensures Upsert(Upsert(s, a), b) == Upsert(s, b)
  {
  }

  /** GET: the stored records in listing order. */
  function Listing(s: StoreState): (r: seq<SensorReading>)
    requires Consistent(s)
    ensures |r| == |s.order|
    ensures forall i :: 0 <= i < |r| ==> r[i] == s.records[s.order[i]]
  {
    seq(|s.order|, i requires 0 <= i < |s.order| => s.records[s.order[i]])
  }

  /** The listing holds exactly one record per stored device id. */
  lemma ListingOnePerDevice(s: StoreState)
    requires Consistent(s)
    ensures var r := Listing(s);
      (forall k :: k in s.records ==> exists i | 0 <= i < |r| :: r[i] == s.records[k]) &&
      (forall i, j | 0 <= i < j < |r| :: r[i].deviceId != r[j].deviceId) &&
      (forall i | 0 <= i < |r| :: r[i].deviceId in s.records)
  {
    var r := Listing(s);
    forall k | k in s.records ensures exists i | 0 <= i < |r| :: r[i] == s.records[k] {
      var i :| 0 <= i < |s.order| && s.order[i] == k;
      assert r[i] == s.records[k];
    }
  }

  class SensorStore {
    var records: map<string, SensorReading>
    var order: seq<string>

    function State(): StoreState
      reads this
    {
      StoreState(records, order)
    }

    ghost predicate Valid()
      reads this
    {
      Consistent(State())
    }

    constructor ()
      ensures Valid() && records == map[] && order == []
    {
      records := map[];
      order := [];
    }

    /** `POST(request)` at server time `nowIso`: a body that is not JSON is a 400 with
        "Invalid JSON payload", one that fails the schema a 400 with "Invalid data
        format", any other failure a 500, and in all three cases the store is
        unchanged; a valid reading is stored, stamped, under its device id and the
        validated input is returned with 201. */
    method Post(body: Body, isDatetime: string -> bool, nowIso: string) returns (resp: Response)
      requires Valid()
      modifies this
      ensures Valid()
      ensures body.Malformed? ==> resp == InvalidJson
      ensures body.Unreadable? ==> resp == InternalError
      ensures body.Parsed? ==> (resp == InvalidData <==> Validate(body.json, isDatetime).None?)
      ensures resp.Created? <==> body.Parsed? && Validate(body.json, isDatetime).Some?
      ensures resp.Created? ==>
        resp.data == Validate(body.json, isDatetime).value &&
        State() == Upsert(old(State()), Stamped(resp.data, nowIso))
      ensures !resp.Created? ==> records == old(records) && order == old(order)
    {
      match body
      case Malformed =>
        return InvalidJson;
      case Unreadable =>
        return InternalError;
      case Parsed(json) =>
        var validated := Validate(json, isDatetime);
        if validated.None? {
          return InvalidData;
        }
        var next := Upsert(State(), Stamped(validated.value, nowIso));
        records := next.records;
        order := next.order;
        resp := Created(validated.value);
    }

    /** `GET()`: status 200 and one record per device. */
    method Get() returns (status: int, data: seq<SensorReading>)
      requires Valid()
      ensures status == 200 && data == Listing(State())
    {
      status := 200;
      data := Listing(State());
    }
  }
}

=== FILE: sidebar_nav.dfy ===
/** The sidebar: which navigation entries are drawn for the viewer (an administrator, a
    signed-in user or a guest), which of them are highlighted as active for the current
    path, where their links point, when an entry's sub-menu is drawn, and the logout
    button at the bottom. */
module SidebarNav {
  import opened Common
  import opened UserContext

  /** The callbacks an entry can carry instead of a link. */
  datatype Action = AdminLogout | UserLogout

  /** `NavItem`; `labelText` is its `label`, the icon is left out, an absent flag is
      `false`, and an absent `subItems` is `NoSubItems`. */
  datatype NavItem = NavItem(
    href: string,
    labelText: string,
    matchExact: bool,
    subItems: SubItems,
    adminOnly: bool,
    userOnly: bool,
    guestOnly: bool,
    action: Option<Action>)

  /** The optional `subItems` array (present even when empty). */
  datatype SubItems = NoSubItems | SubItemList(items: seq<NavItem>)

  function Entry(href: string, labelText: string): NavItem
  {
    NavItem(href, labelText, false, NoSubItems, false, false, false, None)
  }

  const CommonNavItems: seq<NavItem> := [
    Entry("/", "Dashboard").(matchExact := true),
    Entry("/products", "Shop Products"),
    Entry("/troubleshoot", "AI Troubleshoot"),
    Entry("/issues", "Common Issues")]

  const UserSpecificNavItems: seq<NavItem> := [
    Entry("/subscriptions", "My Subscription").(userOnly := true)]

  const AdminNavItemsSection: NavItem :=
    Entry("/admin", "Admin Panel").(adminOnly := true, subItems := SubItemList([
      Entry("/admin", "Overview").(matchExact := true, adminOnly := true),
      Entry("/admin/devices", "Devices").(adminOnly := true),
      Entry("/admin/users", "Users").(adminOnly := true),
      Entry("/admin/manage-issues", "Manage Issues").(adminOnly := true)]))

  const AuthNavItems: seq<NavItem> := [
    Entry("/auth/login", "User Login").(guestOnly := true),
    Entry("/auth/register", "User Register").(guestOnly := true),
    Entry("/auth/admin-login", "Admin Login").(guestOnly := true)]

  const AdminLoginPath := "/auth/admin-login"

  /** Who is looking: the administrator flag and the session record. */
  datatype Viewer = Viewer(isAdmin: bool, currentUser: Option<User>)

  /** `currentUser && currentUser.isLoggedIn`. */
  predicate SignedIn(v: Viewer)
  {
    v.currentUser.Some? && v.currentUser.value.isLoggedIn
  }

  /** The three guards at the top of `renderNavItem`: admin-only entries need an
      administrator, user-only entries a signed-in user who is not one, guest-only
      entries neither. */
  predicate Visible(item: NavItem, v: Viewer)
  {
    !(item.adminOnly && !v.isAdmin) &&
    !(item.userOnly && (!SignedIn(v) || v.isAdmin)) &&
    !(item.guestOnly && (v.isAdmin || SignedIn(v)))
  }

  /** `isActive`: the path equals the entry's link for an exact entry, and starts with
      it otherwise. */
  predicate IsActive(item: NavItem, pathname: string)
  {
    if item.matchExact then pathname == item.href else StartsWith(pathname, item.href)
  }

  /** `effectiveHref`: an admin-only entry seen by someone else would point at the
      admin login page. */
  function EffectiveHref(item: NavItem, v: Viewer): string
  {
    if item.adminOnly && !v.isAdmin && !StartsWith(item.href, AdminLoginPath) then AdminLoginPath
    else item.href
  }

  /** What is drawn for an entry: a button running its action, or a link with its
      highlight and, when drawn, its sub-menu. */
  datatype Rendered =
    | Button(labelText: string, action: Action, isSub: bool)
    | Link(labelText: string, href: string, isActive: bool, isSub: bool, subMenu: Option<seq<Rendered>>)

  /** `renderNavItem(item, isSubItem)` for viewer `v` on path `pathname`; `None` is the
      `null` of a hidden entry. */
  function Render(item: NavItem, isSub: bool, v: Viewer, pathname: string): (r: Option<Rendered>)
    decreases item
    ensures r.Some? <==> Visible(item, v)
    ensures r.Some? ==> (r.value.Button? <==> item.action.Some?)
    ensures r.Some? ==> r.value.labelText == item.labelText && r.value.isSub == isSub
    ensures r.Some? && r.value.Button? ==> r.value.action == item.action.value
    ensures r.Some? && r.value.Link? ==>
      r.value.href == item.href && r.value.isActive == IsActive(item, pathname)
    ensures r.Some? && r.value.Link? ==>
      (r.value.subMenu.Some? <==>
        item.subItems.SubItemList? && (item.adminOnly ==> v.isAdmin) && IsActive(item, pathname))
    ensures r.Some? && r.value.Link? && r.value.subMenu.Some? && item.subItems.SubItemList? ==>
      r.value.subMenu.value == RenderAll(item.subItems.items, true, v, pathname)
  {
    if !Visible(item, v) then None
    else if item.action.Some? then Some(Button(item.labelText, item.action.value, isSub))
    else
      var isActive := IsActive(item, pathname);
      var subMenu := if item.subItems.SubItemList? && (if item.adminOnly then v.isAdmin else true) && isActive
                     then Some(RenderAll(item.subItems.items, true, v, pathname))
                     else None;
      Some(Link(item.labelText, EffectiveHref(item, v), isActive, isSub, subMenu))
  }

  /** `items.map(item => renderNavItem(item, isSub))`, the hidden entries drawing
      nothing. */
  function RenderAll(items: seq<NavItem>, isSub: bool, v: Viewer, pathname: string): (r: seq<Rendered>)
    decreases items
    ensures |r| <= |items|
  {
    if |items| == 0 then []
    else
      var head := Render(items[0], isSub, v, pathname);
      (if head.Some? then [head.value] else []) + RenderAll(items[1..], isSub, v, pathname)
  }

  /** The logout entries at the bottom: the administrator's for an administrator, the
      user's for a signed-in user who is not one. */
  function LogoutItems(v: Viewer): (r: seq<NavItem>)
    ensures |r| <= 1
    ensures |r| == 1 <==> v.isAdmin || SignedIn(v)
    ensures |r| == 1 ==> r[0].action == Some(if v.isAdmin then AdminLogout else UserLogout)
    ensures |r| == 1 ==> r[0].labelText == if v.isAdmin then "Admin Logout" else "User Logout"
  {
    (if v.isAdmin then [Entry("#", "Admin Logout").(action := Some(AdminLogout))] else []) +
    (if SignedIn(v) && !v.isAdmin then [Entry("#", "User Logout").(action := Some(UserLogout))] else [])
  }

  /** The two menus of the sidebar. */
  datatype Sidebar = Sidebar(main: seq<Rendered>, bottom: seq<Rendered>)

  function RenderSidebar(v: Viewer, pathname: string): Sidebar
  {
    Sidebar(
      RenderAll(CommonNavItems, false, v, pathname) + RenderAll(UserSpecificNavItems, false, v, pathname) +
      RenderAll([AdminNavItemsSection], false, v, pathname),
      RenderAll(AuthNavItems, false, v, pathname) + RenderAll(LogoutItems(v), false, v, pathname))
  }

  // ---------------------------------------------------------------------------
  // Properties

  /** Each guard in terms of the viewer: an admin-only entry is drawn only for an
      administrator, a user-only entry only for a signed-in non-administrator, a
      guest-only entry only when nobody is signed in. */
  lemma GuardsOfDrawnEntry(item: NavItem, isSub: bool, v: Viewer, pathname: string)
    requires Render(item, isSub, v, pathname).Some?
    ensures item.adminOnly ==> v.isAdmin
    ensures item.userOnly ==> SignedIn(v) && !v.isAdmin
    ensures item.guestOnly ==> !v.isAdmin && !SignedIn(v)
  {
  }

  /** No viewer is shown both a guest-only and a user-only entry. */
  lemma GuestAndUserEntriesExclusive(guest: NavItem, user: NavItem, v: Viewer, pathname: string)
    requires guest.guestOnly && user.userOnly
    ensures !(Render(guest, false, v, pathname).Some? && Render(user, false, v, pathname).Some?)
  {
  }

  /** An exact match is also a prefix match. */
  lemma ExactActiveImpliesPrefixActive(item: NavItem, pathname: string)
    requires item.matchExact && IsActive(item, pathname)
    ensures IsActive(item.(matchExact := false), pathname)
  {
    assert pathname[..|item.href|] == pathname;
  }

  /** The redirect to the admin login page is never taken for a drawn entry: every
      drawn link points at the entry's own address. */
  lemma DrawnLinkKeepsHref(item: NavItem, v: Viewer)
    requires Visible(item, v)
    ensures EffectiveHref(item, v) == item.href
  {
  }

  /** A drawn list holds one drawing per visible entry, in order: its k-th element is the
      drawing of the k-th visible entry. */
  lemma {:induction false} RenderAllVisible(items: seq<NavItem>, isSub: bool, v: Viewer, pathname: string)
    ensures var r := RenderAll(items, isSub, v, pathname);
      var shown := Filter(items, (i: NavItem) => Visible(i, v));
      |r| == |shown| &&
      forall k :: 0 <= k < |r| ==> Render(shown[k], isSub, v, pathname) == Some(r[k])
  {
    if |items| > 0 {
      RenderAllVisible(items[1..], isSub, v, pathname);
      var visible := (i: NavItem) => Visible(i, v);
      var rest := RenderAll(items[1..], isSub, v, pathname);
      var tail := Filter(items[1..], visible);
      if Visible(items[0], v) {
        assert RenderAll(items, isSub, v, pathname) == [Render(items[0], isSub, v, pathname).value] + rest;
        assert Filter(items, visible) == [items[0]] + tail;
      } else {
        assert RenderAll(items, isSub, v, pathname) == rest;
        assert Filter(items, visible) == tail;
      }
    }
  }

  /** Count of action buttons in a drawn list. */
  function Buttons(r: seq<Rendered>): nat
  {
    if |r| == 0 then 0 else (if r[0].Button? then 1 else 0) + Buttons(r[1..])
  }

  lemma {:induction false} ButtonsAppend(a: seq<Rendered>, b: seq<Rendered>)
    ensures Buttons(a + b) == Buttons(a) + Buttons(b)
  {
    if |a| == 0 {
      assert a + b == b;
    } else {
      assert (a + b)[1..] == a[1..] + b;
      ButtonsAppend(a[1..], b);
    }
  }

  /** Entries without an action never draw a button at the top level. */
  lemma {:induction false} NoActionNoButtons(items: seq<NavItem>, isSub: bool, v: Viewer, pathname: string)
    requires forall i :: 0 <= i < |items| ==> items[i].action.None?
    ensures Buttons(RenderAll(items, isSub, v, pathname)) == 0
  {
    if |items| > 0 {
      var head := Render(items[0], isSub, v, pathname);
      NoActionNoButtons(items[1..], isSub, v, pathname);
      ButtonsAppend(if head.Some? then [head.value] else [], RenderAll(items[1..], isSub, v, pathname));
    }
  }

  /** The bottom menu shows one logout button to anyone signed in (administrator or
      user) and none to a guest. */
  lemma LogoutButtonCount(v: Viewer, pathname: string)
    ensures var bottom := RenderSidebar(v, pathname).bottom;
      Buttons(bottom) <= 1 && (Buttons(bottom) == 1 <==> v.isAdmin || SignedIn(v))
  {
    var logout := LogoutItems(v);
    NoActionNoButtons(AuthNavItems, false, v, pathname);
    ButtonsAppend(RenderAll(AuthNavItems, false, v, pathname), RenderAll(logout, false, v, pathname));
    if |logout| == 1 {
      assert logout[1..] == [];
      assert Visible(logout[0], v);
      var drawn := RenderAll(logout, false, v, pathname);
      assert drawn == [Render(logout[0], false, v, pathname).value];
      assert Buttons(drawn) == 1;
    }
  }

  /** For anyone signed in, the bottom menu ends with the logout button that matches the
      session: the administrator's logout for an administrator, the user's for a user. */
  lemma BottomEndsWithMatchingLogout(v: Viewer, pathname: string)
    requires v.isAdmin || SignedIn(v)
    ensures var bottom := RenderSidebar(v, pathname).bottom;
      |bottom| > 0 &&
      bottom[|bottom| - 1] ==
        if v.isAdmin then Button("Admin Logout", AdminLogout, false) else Button("User Logout", UserLogout, false)
  {
    var logout := LogoutItems(v);
    assert logout[1..] == [];
    var drawn := RenderAll(logout, false, v, pathname);
    assert drawn == [Render(logout[0], false, v, pathname).value];
    assert RenderSidebar(v, pathname).bottom == RenderAll(AuthNavItems, false, v, pathname) + drawn;
  }
}

=== FILE: subscriptions.dfy ===
/** The subscriptions page: which plan the signed-in user holds and which plans are
    offered to them. A running Basic plan is offered Premium and Enterprise, a running
    Premium plan Enterprise, a running Enterprise plan nothing; anyone without a running
    plan is shown the whole catalogue. */
module Subscriptions {
  import opened Common
  import opened UserContext

  /** `SubscriptionPlan`, without its floating-point `priceValue`. */
  datatype Plan = Plan(
    id: string,
    name: string,
    price: string,
    priceFrequency: string,
    description: string,
    features: seq<string>,
    isPopular: bool,
    ctaLabel: string)

  const BasicPlan := Plan("basic", "Basic", "$9.99", "/month",
    "Essential monitoring for personal use.",
    ["1 Monitored Device", "Real-time Data Updates", "Basic Alerts", "Email Support",
     "Limited AI Troubleshooting (5 queries/month)"],
    false, "Add to Cart")

  const PremiumPlan := Plan("premium", "Premium", "$29.99", "/month",
    "Advanced features for serious users and small businesses.",
    ["Up to 3 Monitored Devices", "Real-time Data Updates & History",
     "Advanced Customizable Alerts (SMS, Email)", "Priority Email & Chat Support",
     "Unlimited AI Troubleshooting", "Access to Detailed Reports"],
    true, "Add to Cart")

  const EnterprisePlan := Plan("enterprise", "Enterprise", "Custom", "",
    "Tailored solutions for large-scale deployments.",
    ["5+ Monitored Devices (Unlimited)", "Custom Integrations", "Dedicated Account Manager",
     "SLA Guarantees", "On-premise Options Available", "Advanced Security Features"],
    false, "Contact Sales")

  /** `masterPlans`, cheapest first. */
  const MasterPlans: seq<Plan> := [BasicPlan, PremiumPlan, EnterprisePlan]

  /** `plans.find(p => p.name.toLowerCase() === planName)`: the first plan whose
      lower-cased name is `planName`. */
  function FindByName(plans: seq<Plan>, planName: string): (r: Option<Plan>)
    ensures r.Some? ==> r.value in plans && ToLower(r.value.name) == planName
    ensures r.None? <==> forall p :: p in plans ==> ToLower(p.name) != planName
  {
    if |plans| == 0 then None
    else if ToLower(plans[0].name) == planName then Some(plans[0])
    else FindByName(plans[1..], planName)
  }

  /** `plans.find(p => p.id === id)`: the first plan with the id. */
  function FindById(plans: seq<Plan>, id: string): (r: Option<Plan>)
    ensures r.Some? ==> r.value in plans && r.value.id == id
    ensures r.None? <==> forall p :: p in plans ==> p.id != id
  {
    if |plans| == 0 then None
    else if plans[0].id == id then Some(plans[0])
    else FindById(plans[1..], id)
  }

  /** The plan found by name is the first match: every plan before it has another name. */
  lemma {:induction false} FindByNameIsFirst(plans: seq<Plan>, planName: string)
    ensures var r := FindByName(plans, planName);
      r.Some? ==>
        exists i | 0 <= i < |plans| :: plans[i] == r.value && forall j | 0 <= j < i :: ToLower(plans[j].name) != planName
  {
    if |plans| > 0 && ToLower(plans[0].name) != planName {
      FindByNameIsFirst(plans[1..], planName);
      var r := FindByName(plans, planName);
      if r.Some? {
        var i :| 0 <= i < |plans| - 1 && plans[1..][i] == r.value &&
          forall j | 0 <= j < i :: ToLower(plans[1..][j].name) != planName;
        assert plans[i + 1] == r.value;
        assert forall j | 0 <= j < i + 1 :: ToLower(plans[j].name) != planName by {
          forall j | 0 <= j < i + 1 ensures ToLower(plans[j].name) != planName {
            if j > 0 { assert plans[j] == plans[1..][j - 1]; }
          }
        }
      }
    } else if |plans| > 0 {
      assert plans[0] == FindByName(plans, planName).value;
    }
  }

  /** The plan found by id is the first match: every plan before it has another id. */
  lemma {:induction false} FindByIdIsFirst(plans: seq<Plan>, id: string)
    ensures var r := FindById(plans, id);
      r.Some? ==> exists i | 0 <= i < |plans| :: plans[i] == r.value && forall j | 0 <= j < i :: plans[j].id != id
  {
    if |plans| > 0 && plans[0].id != id {
      FindByIdIsFirst(plans[1..], id);
      var r := FindById(plans, id);
      if r.Some? {
        var i :| 0 <= i < |plans| - 1 && plans[1..][i] == r.value && forall j | 0 <= j < i :: plans[1..][j].id != id;
        assert plans[i + 1] == r.value;
        assert forall j | 0 <= j < i + 1 :: plans[j].id != id by {
          forall j | 0 <= j < i + 1 ensures plans[j].id != id {
            if j > 0 { assert plans[j] == plans[1..][j - 1]; }
          }
        }
      }
    } else if |plans| > 0 {
      assert plans[0] == FindById(plans, id).value;
    }
  }

  /** `if (found) upgradeOptions.push(found)`. */
  function Pushed(options: seq<Plan>, found: Option<Plan>): (r: seq<Plan>)
    ensures found.Some? ==> r == options + [found.value]
    ensures found.None? ==> r == options
  {
    if found.Some? then options + [found.value] else options
  }

  /** The upgrade options built for the active plan. */
  function Upgrades(active: Plan): seq<Plan>
  {
    if active.id == "basic" then
      Pushed(Pushed([], FindById(MasterPlans, "premium")), FindById(MasterPlans, "enterprise"))
    else if active.id == "premium" then
      Pushed([], FindById(MasterPlans, "enterprise"))
    else []
  }

  lemma FindPremium()
    ensures FindById(MasterPlans, "premium") == Some(PremiumPlan)
  {
    assert MasterPlans[1..] == [PremiumPlan, EnterprisePlan];
  }

  lemma FindEnterprise()
    ensures FindById(MasterPlans, "enterprise") == Some(EnterprisePlan)
  {
    assert MasterPlans[1..] == [PremiumPlan, EnterprisePlan];
    assert MasterPlans[1..][1..] == [EnterprisePlan];
  }

  lemma UpgradesOfBasic()
    ensures Upgrades(BasicPlan) == [PremiumPlan, EnterprisePlan]
  {
    FindPremium();
    FindEnterprise();
  }

  lemma UpgradesOfPremium()
    ensures Upgrades(PremiumPlan) == [EnterprisePlan]
  {
    FindEnterprise();
  }

  /** The three catalogue plans, and what each is offered. */
  lemma UpgradesOfEachPlan()
    ensures Upgrades(BasicPlan) == [PremiumPlan, EnterprisePlan]
    ensures Upgrades(PremiumPlan) == [EnterprisePlan]
    ensures Upgrades(EnterprisePlan) == []
  {
    UpgradesOfBasic();
    UpgradesOfPremium();
  }

  /** Every upgrade offered for the `i`-th catalogue plan differs from it and comes
      later in the catalogue. */
  predicate OffersLaterPlans(i: nat)
    requires i < |MasterPlans|
  {
    forall k :: 0 <= k < |Upgrades(MasterPlans[i])| ==>
      Upgrades(MasterPlans[i])[k] != MasterPlans[i] &&
      exists j :: i < j < |MasterPlans| && MasterPlans[j] == Upgrades(MasterPlans[i])[k]
  }

  lemma BasicOffersLaterPlans()
    ensures OffersLaterPlans(0)
  {
    UpgradesOfBasic();
    var u := Upgrades(MasterPlans[0]);
    assert u == [MasterPlans[1], MasterPlans[2]];
    forall k | 0 <= k < |u| ensures u[k] != MasterPlans[0] && MasterPlans[k + 1] == u[k] {
    }
  }

  lemma PremiumOffersLaterPlans()
    ensures OffersLaterPlans(1)
  {
    UpgradesOfPremium();
    var u := Upgrades(MasterPlans[1]);
    assert u == [MasterPlans[2]];
    assert u[0] != MasterPlans[1] && MasterPlans[2] == u[0];
  }

  /** An offered upgrade is never the plan held, and always comes later in the
      catalogue. */
  lemma UpgradesComeLater(i: nat)
    requires i < |MasterPlans|
    ensures OffersLaterPlans(i)
  {
    if i == 0 {
      BasicOffersLaterPlans();
    } else if i == 1 {
      PremiumOffersLaterPlans();
    } else {
      assert Upgrades(MasterPlans[2]) == [];
    }
  }

  /** What the effect sets: the plan held (if any), the plans displayed and the
      time-remaining text. */
  datatype Selection = Selection(currentPlan: Option<Plan>, displayPlans: seq<Plan>, timeRemaining: string)

  /** The plan name compared against the catalogue: the lower-cased plan of a signed-in
      user, "none" otherwise. */
  function PlanKey(user: User): (k: string)
    ensures !user.isLoggedIn ==> k == "none"
    ensures user.isLoggedIn ==> k == ToLower(user.subscription.planName)
  {
    if user.isLoggedIn then ToLower(user.subscription.planName) else "none"
  }

  /** The effect run with user record `user` at time `now`. Without a user record the
      whole catalogue is displayed and nothing else is decided. */
  function Select(user: Option<User>, now: int): (s: Selection)
  {
    if user.None? then Selection(None, MasterPlans, "")
    else
      var u := user.value;
      var planName := PlanKey(u);
      var expiry := if u.isLoggedIn then TimeRemaining(user, now) else "N/A";
      var activePlan := FindByName(MasterPlans, planName);
      if u.isLoggedIn && activePlan.Some? && expiry != "Expired" && planName != "none" then
        var options := Upgrades(activePlan.value);
        Selection(activePlan, if |options| > 0 then options else [], expiry)
      else Selection(None, MasterPlans, expiry)
  }

  /** The "Expired" text is shown exactly in the expired case. */
  lemma ExpiredText(user: Option<User>, now: int)
    ensures TimeRemaining(user, now) == "Expired" <==> RemainingOf(user, now).Expired?
  {
    if TimeRemaining(user, now) == "Expired" {
      RemainingLabelDistinguishes(RemainingOf(user, now), UserContext.Expired);
    }
  }

  /** A plan is current exactly when a signed-in user's plan name matches a catalogue
      plan, ignoring case, is not "none" and has not expired; the plans shown are then
      its upgrades, and otherwise the whole catalogue. */
  lemma SelectCurrentPlan(user: Option<User>, now: int)
    ensures var s := Select(user, now);
      s.currentPlan.Some? <==>
        user.Some? && user.value.isLoggedIn &&
        ToLower(user.value.subscription.planName) != "none" &&
        (exists p :: p in MasterPlans && ToLower(p.name) == ToLower(user.value.subscription.planName)) &&
        !RemainingOf(user, now).Expired?
    ensures var s := Select(user, now);
      s.currentPlan.Some? ==> s.currentPlan.value in MasterPlans && s.displayPlans == Upgrades(s.currentPlan.value)
    ensures var s := Select(user, now);
      s.currentPlan.None? ==> s.displayPlans == MasterPlans
  {
    if user.Some? && user.value.isLoggedIn {
      var key := PlanKey(user.value);
      assert key == ToLower(user.value.subscription.planName);
      var found := FindByName(MasterPlans, key);
      assert found.Some? <==> exists p :: p in MasterPlans && ToLower(p.name) == key;
      ExpiredText(user, now);
    }
  }

  /** "none" is no catalogue plan, so a plan name that lower-cases to "none" never
      selects one. */
  lemma NoPlanIsNamedNone()
    ensures forall p :: p in MasterPlans ==> ToLower(p.name) != "none"
  {
    assert ToLower(BasicPlan.name)[0] == 'b';
    assert ToLower(PremiumPlan.name)[0] == 'p';
    assert ToLower(EnterprisePlan.name)[0] == 'e';
  }

  /** A lower-cased name is never "None". */
  lemma LoweredIsNotNone(s: string)
    ensures ToLower(s) != "None"
  {
    if |s| == 4 {
      assert ToLower(s)[0] == LowerChar(s[0]) != 'N';
    }
  }

  /** Only whether the plan is "None" matters to the time left, not its name. */
  lemma RemainingOfRenamed(user: User, name: string, now: int)
    requires user.subscription.planName != "None" && name != "None"
    ensures RemainingOf(Some(user), now) == RemainingOf(Some(user.(subscription := user.subscription.(planName := name))), now)
  {
  }

  /** The plan held and the plans offered depend only on whether the user is signed in,
      on the plan key and, for a plan key other than "none", on the time text. */
  lemma SelectDependsOnKey(u1: User, u2: User, now: int)
    requires u1.isLoggedIn == u2.isLoggedIn && PlanKey(u1) == PlanKey(u2)
    requires u1.isLoggedIn && PlanKey(u1) != "none" ==> TimeRemaining(Some(u1), now) == TimeRemaining(Some(u2), now)
    ensures Select(Some(u1), now).currentPlan == Select(Some(u2), now).currentPlan
    ensures Select(Some(u1), now).displayPlans == Select(Some(u2), now).displayPlans
  {
  }

  /** The plan held and the plans offered depend on the plan name only up to case. */
  lemma SelectIgnoresPlanCase(user: User, now: int)
    ensures var lowered := user.(subscription := user.subscription.(planName := ToLower(user.subscription.planName)));
      var a := Select(Some(user), now);
      var b := Select(Some(lowered), now);
      a.currentPlan == b.currentPlan && a.displayPlans == b.displayPlans
  {
    var name := user.subscription.planName;
    var lowered := user.(subscription := user.subscription.(planName := ToLower(name)));
    ToLowerIdempotent(name);
    assert PlanKey(lowered) == PlanKey(user);
    if user.isLoggedIn && PlanKey(user) != "none" {
      LoweredIsNotNone(name);
      assert name != "None" by {
        assert ToLower("None") == "none";
      }
      RemainingOfRenamed(user, ToLower(name), now);
    }
    SelectDependsOnKey(user, lowered, now);
  }
}

=== FILE: user_context.dfy ===
/** The session store (`UserProvider`): the current user record, normalised on login
    and reset to the guest record on logout; the notification list, newest first and
    capped at 20 entries; and the "time remaining" text of the user's subscription.
    Timestamps and expiry dates are integer milliseconds since the epoch. */
module UserContext {
  import opened Common

  /** `AppNotification['type']`, plus the 'warning' kind the dashboard grid passes. */
  datatype NotificationKind = UserKind | AdminKind | ArduinoKind | SystemKind | WarningKind

  datatype Notification = Notification(
    id: string,
    message: string,
    read: bool,
    timestamp: int,
    kind: NotificationKind,
    target: Option<string>)

  /** `expiryDate` is `None` where the source holds an empty or missing date string. */
  datatype Subscription = Subscription(planName: string, expiryDate: Option<int>)

  datatype User = User(
    id: string,
    name: string,
    firstName: string,
    lastName: string,
    email: string,
    whatsappNumber: string,
    companyName: string,
    isLoggedIn: bool,
    subscription: Subscription)

  /** `MOCK_USER_LOGGED_OUT`. */
  const Guest := User("", "Guest", "", "", "", "", "", false, Subscription("None", Some(0)))

  const NotificationCap := 20

  const MsPerMinute := 60 * 1000
  const MsPerHour := 60 * MsPerMinute
  const MsPerDay := 24 * MsPerHour

  // ---------------------------------------------------------------------------
  // Login normalisation

  /** The record `loginUser(userData)` stores: logged in, full name rebuilt from first
      and last name, an empty plan name read as "None" and a missing expiry as the
      epoch; every other field as given. */
  function Normalized(userData: User): (u: User)
    ensures u.isLoggedIn
    ensures u.name == userData.firstName + " " + userData.lastName
    ensures userData.subscription.planName == "" ==> u.subscription.planName == "None"
    ensures userData.subscription.planName != "" ==> u.subscription.planName == userData.subscription.planName
    ensures userData.subscription.expiryDate.None? ==> u.subscription.expiryDate == Some(0)
    ensures userData.subscription.expiryDate.Some? ==> u.subscription.expiryDate == userData.subscription.expiryDate
    ensures u.(name := userData.name, isLoggedIn := userData.isLoggedIn, subscription := userData.subscription) == userData
  {
    var planName := if userData.subscription.planName == "" then "None" else userData.subscription.planName;
    var expiry := userData.subscription.expiryDate.GetOr(0);
    userData.(isLoggedIn := true,
              name := userData.firstName + " " + userData.lastName,
              subscription := Subscription(planName, Some(expiry)))
  }

  /** Logging in an already normalised record changes nothing. */
  lemma NormalizedIdempotent(userData: User)
    ensures Normalized(Normalized(userData)) == Normalized(userData)
  {
  }

  // ---------------------------------------------------------------------------
  // Notifications

  /** `unreadNotificationCount`. */
  function UnreadCount(ns: seq<Notification>): (k: nat)
    ensures k <= |ns|
    ensures ns == [] ==> k == 0
  {
    |Filter(ns, (n: Notification) => !n.read)|
  }

  /** The list `markNotificationAsRead(id)` leaves: every entry with the id is read,
      and nothing else about any entry, nor their order, changes. */
  function MarkedRead(ns: seq<Notification>, id: string): (r: seq<Notification>)
    ensures |r| == |ns|
    ensures forall i :: 0 <= i < |r| ==>
      r[i].(read := ns[i].read) == ns[i] && r[i].read == (ns[i].read || ns[i].id == id)
  {
    seq(|ns|, i requires 0 <= i < |ns| => if ns[i].id == id then ns[i].(read := true) else ns[i])
  }

  /** The list `markAllNotificationsAsRead()` leaves. */
  function AllMarkedRead(ns: seq<Notification>): (r: seq<Notification>)
    ensures |r| == |ns|
    ensures forall i :: 0 <= i < |r| ==> r[i].read && r[i].(read := ns[i].read) == ns[i]
  {
    seq(|ns|, i requires 0 <= i < |ns| => ns[i].(read := true))
  }

  /** After marking everything read the unread count is zero. */
  lemma AllMarkedReadHasNoUnread(ns: seq<Notification>)
    ensures UnreadCount(AllMarkedRead(ns)) == 0
  {
    var r := AllMarkedRead(ns);
    forall x | x in r ensures x.read {
      var k :| 0 <= k < |r| && r[k] == x;
    }
    FilterNone(r, (n: Notification) => !n.read);
  }

  /** Marking one notification read never raises the unread count. */
  lemma {:induction false} MarkedReadLowersUnread(ns: seq<Notification>, id: string)
    ensures UnreadCount(MarkedRead(ns, id)) <= UnreadCount(ns)
  {
    var unread := (n: Notification) => !n.read;
    if ns != [] {
      var r := MarkedRead(ns, id);
      assert r[1..] == MarkedRead(ns[1..], id);
      MarkedReadLowersUnread(ns[1..], id);
      assert Filter(r, unread) == (if unread(r[0]) then [r[0]] else []) + Filter(r[1..], unread);
      assert Filter(ns, unread) == (if unread(ns[0]) then [ns[0]] else []) + Filter(ns[1..], unread);
    }
  }

  // ---------------------------------------------------------------------------
  // Subscription time remaining

  /** The floor split of `diff` into days, hours and minutes, each part bounded. */
  lemma RemainingPartsBounds(diff: nat)
    ensures var days := diff / MsPerDay;
      var hours := (diff % MsPerDay) / MsPerHour;
      var minutes := (diff % MsPerHour) / MsPerMinute;
      hours < 24 && minutes < 60 &&
      diff - MsPerMinute < days * MsPerDay + hours * MsPerHour + minutes * MsPerMinute <= diff
  {
    var days := diff / MsPerDay;
    var rd := diff % MsPerDay;
    var hours := rd / MsPerHour;
    var rh := rd % MsPerHour;
    var minutes := rh / MsPerMinute;
    ModOfMultiple(diff, MsPerHour, 24);
    assert diff % MsPerHour == rh;
    assert diff == days * MsPerDay + rd;
    assert rd == hours * MsPerHour + rh;
    assert rh == minutes * MsPerMinute + rh % MsPerMinute;
  }

  /** Whole days, hours within the day and minutes within the hour of a non-negative
      millisecond difference, each rounded down. */
  function RemainingParts(diff: nat): (p: (nat, nat, nat))
    ensures p.1 < 24 && p.2 < 60
    ensures diff - MsPerMinute < p.0 * MsPerDay + p.1 * MsPerHour + p.2 * MsPerMinute <= diff
  {
    RemainingPartsBounds(diff);
    (diff / MsPerDay, (diff % MsPerDay) / MsPerHour, (diff % MsPerHour) / MsPerMinute)
  }

  /** `remainingString` before trimming: "Xd " when there are whole days, "Yh " when
      there are days or hours, and always "Zm remaining". */
  function RemainingText(days: nat, hours: nat, minutes: nat): (r: string)
    ensures ('d' in r) <==> days > 0
    ensures ('h' in r) <==> (days > 0 || hours > 0)
    ensures |r| >= 12 && r[|r| - 11..] == "m remaining"
    ensures days == 0 && hours == 0 ==> r == NatToString(minutes) + "m remaining"
    ensures '0' <= r[0] <= '9' && r[|r| - 1] == 'g'
  {
    var d := if days > 0 then NatToString(days) + "d " else "";
    var h := if days > 0 || hours > 0 then NatToString(hours) + "h " else "";
    var m := NatToString(minutes) + "m remaining";
    var r := d + h + m;
    assert 'd' !in NatToString(days) && 'd' !in NatToString(hours) && 'd' !in NatToString(minutes);
    assert 'h' !in NatToString(days) && 'h' !in NatToString(hours) && 'h' !in NatToString(minutes);
    assert 'd' !in "m remaining" && 'h' !in "m remaining";
    assert r[|r| - 11..] == "m remaining";
    assert '0' <= r[0] <= '9';
    r
  }

  const RemainingTail := "m remaining"

  /** Whether a text starts with the given letter and a space. */
  predicate UnitFollows(s: string, unit: char)
  {
    |s| >= 2 && s[0] == unit && s[1] == ' '
  }

  /** Reads "Zm remaining" back into Z. */
  function ReadMinutes(t: string): Option<nat>
  {
    var (c, rest) := ReadNumber(t);
    if rest == RemainingTail then Some(c) else None
  }

  /** Reads "Yh Zm remaining" back into Y and Z. */
  function ReadHours(t: string): Option<(nat, nat)>
  {
    var (b, rest) := ReadNumber(t);
    if UnitFollows(rest, 'h') then
      match ReadMinutes(rest[2..])
      case Some(c) => Some((b, c))
      case None => None
    else None
  }

  /** Reads a time-left text back into its days, hours and minutes: "Xd Yh Zm remaining",
      "Yh Zm remaining" or "Zm remaining". */
  function ReadRemaining(t: string): Option<(nat, nat, nat)>
  {
    var (a, rest) := ReadNumber(t);
    if UnitFollows(rest, 'd') then
      match ReadHours(rest[2..])
      case Some(hm) => Some((a, hm.0, hm.1))
      case None => None
    else if UnitFollows(rest, 'h') then
      match ReadHours(t)
      case Some(hm) => Some((0, hm.0, hm.1))
      case None => None
    else
      match ReadMinutes(t)
      case Some(c) => Some((0, 0, c))
      case None => None
  }

  lemma ReadMinutesOf(minutes: nat)
    ensures ReadMinutes(NatToString(minutes) + RemainingTail) == Some(minutes)
  {
    ReadNumberOf(minutes, RemainingTail);
  }

  lemma ReadHoursOf(hours: nat, minutes: nat)
    ensures ReadHours(NatToString(hours) + ("h " + (NatToString(minutes) + RemainingTail)))
         == Some((hours, minutes))
  {
    var m := NatToString(minutes) + RemainingTail;
    ReadNumberOf(hours, "h " + m);
    assert ("h " + m)[2..] == m;
    ReadMinutesOf(minutes);
  }

  lemma ReadDaysOf(days: nat, h: string)
    requires ReadHours(h).Some?
    ensures ReadRemaining(NatToString(days) + ("d " + h)) == Some((days, ReadHours(h).value.0, ReadHours(h).value.1))
  {
    ReadNumberOf(days, "d " + h);
    assert ("d " + h)[2..] == h;
  }

  lemma ReadHoursFirst(hours: nat, minutes: nat)
    ensures ReadRemaining(NatToString(hours) + ("h " + (NatToString(minutes) + RemainingTail)))
         == Some((0, hours, minutes))
  {
    var m := NatToString(minutes) + RemainingTail;
    ReadNumberOf(hours, "h " + m);
    ReadHoursOf(hours, minutes);
  }

  lemma ReadMinutesFirst(minutes: nat)
    ensures ReadRemaining(NatToString(minutes) + RemainingTail) == Some((0, 0, minutes))
  {
    ReadNumberOf(minutes, RemainingTail);
    ReadMinutesOf(minutes);
  }

  lemma Regroup(a: string, b: string, c: string, d: string, e: string)
    ensures a + b + (c + d) + e == a + (b + (c + (d + e)))
    ensures "" + (c + d) + e == c + (d + e)
    ensures "" + "" + e == e
  {
  }

  /** The time-left text states its numbers: reading it back gives the days, hours and
      minutes it was written from. */
  lemma RemainingTextReadsBack(days: nat, hours: nat, minutes: nat)
    ensures ReadRemaining(RemainingText(days, hours, minutes)) == Some((days, hours, minutes))
  {
    var m := NatToString(minutes) + RemainingTail;
    Regroup(NatToString(days), "d ", NatToString(hours), "h ", m);
    if days > 0 {
      ReadHoursOf(hours, minutes);
      ReadDaysOf(days, NatToString(hours) + ("h " + m));
    } else if hours > 0 {
      ReadHoursFirst(hours, minutes);
    } else {
      ReadMinutesFirst(minutes);
    }
  }

  /** The cases `getSubscriptionDaysRemaining()` tells apart. */
  datatype Remaining = NotApplicable | NoExpiry | Expired | Left(days: nat, hours: nat, minutes: nat)

  /** Which case applies to `user` at time `now`, and for a running plan how much time
      is left, split into whole days, hours and minutes. */
  function RemainingOf(user: Option<User>, now: int): (r: Remaining)
    ensures r.NotApplicable? <==>
      user.None? || !user.value.isLoggedIn || user.value.subscription.planName == "None"
    ensures r.NoExpiry? <==>
      user.Some? && user.value.isLoggedIn && user.value.subscription.planName != "None" &&
      user.value.subscription.expiryDate.None?
    ensures r.Expired? <==>
      user.Some? && user.value.isLoggedIn && user.value.subscription.planName != "None" &&
      user.value.subscription.expiryDate.Some? && user.value.subscription.expiryDate.value < now
    ensures r.Left? ==>
      user.Some? && user.value.subscription.expiryDate.Some? &&
      var left := user.value.subscription.expiryDate.value - now;
      r.hours < 24 && r.minutes < 60 &&
      left - MsPerMinute < r.days * MsPerDay + r.hours * MsPerHour + r.minutes * MsPerMinute <= left
  {
    if user.None? || !user.value.isLoggedIn || user.value.subscription.planName == "None" then NotApplicable
    else if user.value.subscription.expiryDate.None? then NoExpiry
    else
      var expiry := user.value.subscription.expiryDate.value;
      if expiry < now then
        (if user.value.subscription.planName != "None" then Expired else NotApplicable)
      else
        var p := RemainingParts(expiry - now);
        Left(p.0, p.1, p.2)
  }

  /** The text shown for each case. */
  function RemainingLabel(r: Remaining): (s: string)
    ensures r.NotApplicable? ==> s == "N/A"
    ensures r.NoExpiry? ==> s == "No expiry date set."
    ensures r.Expired? ==> s == "Expired"
    ensures r.Left? ==> s == RemainingText(r.days, r.hours, r.minutes)
  {
    match r
    case NotApplicable => "N/A"
    case NoExpiry => "No expiry date set."
    case Expired => "Expired"
    case Left(days, hours, minutes) =>
      var text := RemainingText(days, hours, minutes);
      TrimKeeps(text);
      Trim(text)
  }

  /** Only the time-left text ends in the 'g' of "remaining". */
  lemma LabelEndsInG(r: Remaining)
    ensures var s := RemainingLabel(r); |s| > 0 && (s[|s| - 1] == 'g' <==> r.Left?)
  {
    match r
    case NotApplicable =>
    case NoExpiry =>
    case Expired =>
    case Left(_, _, _) =>
  }

  /** Different cases never show the same text, so the text tells the case. */
  lemma RemainingLabelDistinguishes(a: Remaining, b: Remaining)
    requires RemainingLabel(a) == RemainingLabel(b)
    ensures a.NotApplicable? == b.NotApplicable? && a.NoExpiry? == b.NoExpiry?
    ensures a.Expired? == b.Expired? && a.Left? == b.Left?
  {
    LabelEndsInG(a);
    LabelEndsInG(b);
    if !a.Left? && !b.Left? {
      assert |RemainingLabel(a)| == |RemainingLabel(b)|;
    }
  }

  /** `getSubscriptionDaysRemaining()` at time `now`. */
  function TimeRemaining(user: Option<User>, now: int): string
  {
    RemainingLabel(RemainingOf(user, now))
  }

  /** For a running plan the text is the rounded-down day/hour/minute split of the
      time left. */
  lemma TimeRemainingOfActivePlan(user: User, now: int)
    requires user.isLoggedIn && user.subscription.planName != "None"
    requires user.subscription.expiryDate.Some? && user.subscription.expiryDate.value >= now
    ensures var p := RemainingParts(user.subscription.expiryDate.value - now);
      TimeRemaining(Some(user), now) == RemainingText(p.0, p.1, p.2)
  {
    var p := RemainingParts(user.subscription.expiryDate.value - now);
    assert RemainingOf(Some(user), now) == Left(p.0, p.1, p.2);
  }

  // ---------------------------------------------------------------------------
  // The store

  class UserSession {
    var currentUser: Option<User>
    var notifications: seq<Notification>

    constructor ()
      ensures currentUser == Some(Guest) && notifications == []
    {
      currentUser := Some(Guest);
      notifications := [];
    }

    /** `loginUser(userData)`. */
    method LoginUser(userData: User)
      modifies this
      ensures currentUser == Some(Normalized(userData)) && notifications == old(notifications)
    {
      currentUser := Some(Normalized(userData));
    }

    /** `logoutUser()`; the navigation to the login page is left out. */
    method LogoutUser()
      modifies this
      ensures currentUser == Some(Guest) && notifications == old(notifications)
    {
      currentUser := Some(Guest);
    }

    /** `addNotification(message, type)`; the id and the time are passed in. */
    method AddNotification(message: string, kind: NotificationKind, id: string, now: int)
      modifies this
      ensures notifications == PrependCapped(Notification(id, message, false, now, kind, None), old(notifications), NotificationCap)
      ensures |notifications| <= NotificationCap && !notifications[0].read
      ensures currentUser == old(currentUser)
    {
      notifications := PrependCapped(Notification(id, message, false, now, kind, None), notifications, NotificationCap);
    }

    /** `markNotificationAsRead(id)`. */
    method MarkNotificationAsRead(id: string)
      modifies this
      ensures notifications == MarkedRead(old(notifications), id) && currentUser == old(currentUser)
      ensures UnreadCount(notifications) <= old(UnreadCount(notifications))
    {
      MarkedReadLowersUnread(notifications, id);
      notifications := MarkedRead(notifications, id);
    }

    /** `markAllNotificationsAsRead()`. */
    method MarkAllNotificationsAsRead()
      modifies this
      ensures notifications == AllMarkedRead(old(notifications)) && currentUser == old(currentUser)
      ensures UnreadCount(notifications) == 0
    {
      AllMarkedReadHasNoUnread(notifications);
      notifications := AllMarkedRead(notifications);
    }

    /** `clearNotifications()`. */
    method ClearNotifications()
      modifies this
      ensures notifications == [] && UnreadCount(notifications) == 0 && currentUser == old(currentUser)
    {
      notifications := [];
    }

    function UnreadNotificationCount(): (k: nat)
      reads this
      ensures k <= |notifications|
    {
      UnreadCount(notifications)
    }

    /** `getSubscriptionDaysRemaining()` at time `now`. */
    function GetSubscriptionDaysRemaining(now: int): (s: string)
      reads this
      ensures currentUser.None? || !currentUser.value.isLoggedIn ==> s == "N/A"
      ensures s == RemainingLabel(RemainingOf(currentUser, now))
    {
      TimeRemaining(currentUser, now)
    }
  }
}
